=== FILE: README.md ===
# Online Retail marketing dashboard — a verified model of its analytics

The dashboard (a Streamlit application over the "Online Retail" transaction
export) computes a small set of customer analytics from a table of invoice
lines:

- **Loading**: the column names of the raw export are normalised, and a
  default `RFM_Segment` column is added (`Loading`).
- **Per-customer aggregates**: the average purchase frequency and the
  average customer lifespan, each with its floors and default values
  (`CustomerStats`).
- **CLV**: customer lifetime value by the formula of the utilities
  (`Clv`). The scenario page has its own variant with other guards
  (`Scenarios`).
- **Cohort retention**: the cohort retention matrix and the views derived
  from it. These are the mean retention by month of age and the M+1 and
  M+12 indicators (`Cohorts`).
- **Scenario page**: the RFM segment bands, the profile of a segment, the
  baseline-versus-scenario comparison, and the curve of CLV over retention
  gains (`Scenarios`).
- **Dashboard page**: the sidebar filter pipeline, the overview KPIs, the
  Month/Quarter period labels and the export of activable customers
  (`Dashboard`, `Labels`).

`Seqs` holds sums, means (NaN for an empty series), distinct values and
minimum/maximum. `Frames` holds the transaction record, the table, the
calendar, and grouping by customer.

Money and rates are `real`; percentages, scores, counts and day numbers are
`int`. Timestamps are calendar dates plus a second of the day, and are
compared and subtracted through a day number in the proleptic Gregorian
calendar. The filter pipeline is a method. It narrows the table one mask
at a time and, in mode "Neutraliser", writes the return lines in place in
an array. It is proved equal to a single conjunctive mask over the input,
about which the page's guarantees are stated. The retention sweep is a
method with a loop, proved against the page's CLV function.

Where the documented behaviour of the dashboard and its code differ, the
model follows the code:

- **Cohort rate.** Each cohort rate is the cell's distinct-customer count
  over the cohort's *largest* count (`transform('max')`), not over its
  month-0 count. `Cohorts.AcquisitionMonthRates` shows that the two agree
  when every customer of the cohort was already seen at month 0.
- **Negative CLV denominator.** `calculate_clv` of the utilities does not
  guard a negative denominator (`r > 1 + d`). Its result is then negative
  (`Clv.ClvNegativePastPole`).
- **Frequency count.** The purchase frequency counts a customer's invoice
  *lines* (`count` of `InvoiceDate`), not its distinct invoices.
- **Sensitivity sweep.** The sweep tries retention *gains* 0, 5, …,
  `gain_max` points on top of the baseline, capped at 99 %. It is not an
  evenly spaced range of retention rates.
- **Mean retention.** The mean retention curve drops the matrix's first
  column (`iloc[:, 1:]`). That is the column of the smallest month index
  present, which is month 0 only when some row has index 0.

## Model

| member | source | states |
|---|---|---|
| Seqs.Mean | app/utils.py:41 | a pandas mean is NaN exactly when the series is empty |
| Seqs.Distinct | app/pages/scenarios.py:48 | `unique()`: the same elements as the input, each once, no more of them than input values |
| Seqs.DistinctCount | app/dashboard.py:191 | `nunique()`: the number of distinct elements is the size of the set of values |
| Seqs.Min | app/utils.py:38 | the `min` aggregate is an element of the group and at most every element |
| Seqs.Max | app/utils.py:38 | the `max` aggregate is an element of the group and at least every element |
| Frames.Customers | app/utils.py:38 | the keys of `groupby("CustomerID")` are exactly the customer ids present, each once |
| Frames.RowsOf | app/utils.py:38 | a customer's group holds every row of that customer as many times as the table does and no other row, and is empty exactly when the customer is absent |
| Frames.CustomerCount | app/dashboard.py:191 | the number of `groupby("CustomerID")` groups is the number of distinct customer ids of the rows |
| Frames.GroupTotalsPartition | app/dashboard.py:314-318 | summing a column per customer and then over customers gives the column's total: the groups partition the rows |
| Loading.RenameColumn | app/utils.py:16 | `rename` relabels every column carrying the old name and keeps every other label in its position |
| Loading.RenameIfPresent | app/utils.py:15-20 | a guarded rename changes nothing when the old name is absent; afterwards the old name is gone and the new one is present exactly when either was; other names are untouched |
| Loading.RenamedColumnNames | app/utils.py:15-20 | after the three renames `CustomerID`, `UnitPrice` and `InvoiceNo` are present exactly when either spelling was, `Customer ID`, `Price` and `Invoice` are gone, and every other column is present exactly when it was |
| Loading.Normalize | app/utils.py:15-25 | normalisation keeps the number of rows |
| Loading.NormalizedColumnNames | app/utils.py:15-25 | after loading, the dashboard's names are present exactly when either spelling was, the raw spellings are gone, and `RFM_Segment` always exists |
| Loading.OtherColumnsUntouched | app/utils.py:15-25 | any other column is present after loading exactly when it was before |
| Loading.RowsPreserved | app/utils.py:24-25 | rows keep every value; a missing segment column is filled with "Aucun segment" on every row, and an existing one is left as it was |
| Loading.NormalizeIdempotent | app/utils.py:15-25 | normalising an already normalised table changes nothing |
| Loading.LoadData | app/utils.py:10-31 | a read that raises gives an empty table; otherwise the table has `RFM_Segment` and all the rows read |
| CustomerStats.Span | app/utils.py:38-39 | the span between a customer's first and last invoice is non-negative |
| CustomerStats.ActiveMonths | app/utils.py:39 | the active months (span over 30 days) are clipped to at least 1 |
| CustomerStats.LifespanDays | app/utils.py:51 | the whole-day lifespan is clipped to at least 1 |
| CustomerStats.FrequencyBounds | app/utils.py:39-40 | a row count over the active months is positive and at most the row count |
| CustomerStats.CustomerFrequencyBounds | app/utils.py:38-40 | each customer's `freq` is positive and never exceeds that customer's row count |
| CustomerStats.Frequencies | app/utils.py:38-40 | the `freq` column has one value per customer: its row count over its active months |
| CustomerStats.LifespansDays | app/utils.py:50-51 | one clipped whole-day lifespan per customer |
| CustomerStats.AvgPurchaseFrequency | app/utils.py:33-43 | 12 when `CustomerID` or `InvoiceDate` is missing; otherwise the mean over the customers (in `Customers` order) of `Frequencies`, that is rowcount / max(span / 30 days, 1), NaN exactly when the table is empty (its bounds: `AvgPurchaseFrequencyBounds`) |
| CustomerStats.CustomerLifespan | app/utils.py:45-54 | 3 when a column is missing; otherwise NaN exactly when the table is empty, else the mean of the customers' clipped whole-day lifespans (`LifespansDays`) over 365 (its bounds: `CustomerLifespanBounds`) |
| CustomerStats.AvgPurchaseFrequencyBounds | app/utils.py:38-41 | on a non-empty table the average frequency is positive and at most the mean number of rows per customer |
| CustomerStats.GroupSizesPartitionRows | app/utils.py:38 | the customers' `count` values add up to the number of rows |
| CustomerStats.GroupInstantsWithin | app/utils.py:50 | a customer's first and last invoices lie between the table's first and last |
| CustomerStats.LifespanDaysMonotone | app/utils.py:51 | a longer span never has fewer clipped whole days |
| CustomerStats.CustomerLifespanDaysBounds | app/utils.py:50-51 | each customer's lifespan is at least one day and at most the whole table's span in days (or one day) |
| CustomerStats.CustomerLifespanBounds | app/utils.py:50-52 | on a non-empty table the average lifespan is at least 1/365 year and at most the table's span in days over 365 |
| Clv.CalculateClv | app/utils.py:56-65 | the CLV is 0 when `r <= 0` or `d <= 0`, and 0 when `1 + d - r` is zero (the caught division error) |
| Clv.ClvFactors | app/utils.py:61-63 | otherwise the CLV is margin profit per period × retention multiplier `r / (1 + d - r)` × lifespan, whatever the table |
| Clv.ClvPerPeriodTimesLifespan | app/utils.py:62-63 | the lifespan is a plain multiplier of the CLV of one period |
| Clv.RetentionFactorIncreasing | app/utils.py:62 | the retention multiplier is positive and grows with `r` below the pole `1 + d` |
| Clv.ClvNonNegativeBelowPole | app/utils.py:58-63 | below the pole with non-negative inputs the CLV is non-negative, and positive exactly when AOV, frequency, lifespan and margin are all non-zero |
| Clv.ClvNegativePastPole | app/utils.py:58-63 | past the pole (`r > 1 + d`) positive inputs give a negative CLV: the negative denominator is not guarded |
| Clv.PerPeriodClvIncreasing | app/utils.py:61-62 | the CLV of one period never decreases as `r` grows below the pole |
| Clv.ClvIncreasingInRetention | app/utils.py:61-63 | with non-negative inputs the CLV never decreases as `r` grows below the pole |
| Clv.ClvWorkedExample | app/utils.py:56-63 | AOV 100, frequency 2, r = 0.7, d = 0.1 and a 30 % margin give 105 per year of lifespan |
| Cohorts.CellCountPositive | app/utils.py:70 | every (Cohort, CohortIndex) group that occurs counts at least one distinct customer |
| Cohorts.MaxCountUpTo | app/utils.py:72 | the running cohort maximum bounds every count met so far and is one of them (or 0) |
| Cohorts.CohortMax | app/utils.py:72 | `transform('max')` is the largest count of the cohort's cells and is reached by one of them when the cohort occurs |
| Cohorts.RatioInUnitInterval | app/utils.py:72 | a positive count over a count at least as large lies in (0, 1], and is 1 exactly when the counts are equal |
| Cohorts.CohortMatrix | app/utils.py:69-74 | the pivot's rows are the cohorts present, each once, its columns the month indices present, each once, and a cell holds a value exactly for the (Cohort, CohortIndex) pairs that occur (the copies at app/cohortes.py lines 13-18 and notebooks/test_streamlit.py lines 13-18 are the same function) |
| Cohorts.MatrixCell | app/utils.py:70-73 | an occurring cell holds its distinct-customer count over the cohort's largest count |
| Cohorts.MatrixValuesInUnitInterval | app/utils.py:70-73 | every value of the matrix lies in (0, 1], in every copy of the function |
| Cohorts.EveryCohortHasFullCell | app/utils.py:72 | every cohort row of the matrix holds a 1, at its largest cell, in every copy of the function |
| Cohorts.IndexZeroFullIff | app/cohortes.py:16 | the month-0 rate is 1 exactly when month 0 holds the cohort's largest distinct-customer count |
| Cohorts.AcquisitionMonthIsLargest | app/utils.py:72 | when every customer of a cohort was seen at month 0, the cohort's largest count is its month-0 count |
| Cohorts.AcquisitionMonthRates | app/utils.py:72-73 | under the same condition the rates are the counts over the month-0 count, and month 0 is 1 |
| Cohorts.SameFactsSameCounts | notebooks/test_streamlit.py:14-16 | tables with the same (cohort, index, customer) facts have the same cells, customer sets and cohort maxima |
| Cohorts.MatrixIndependentOfOrderAndRepeats | app/cohortes.py:14-17 | the matrix's cell values depend neither on the order of the rows nor on a customer's repeated rows within a cell; the sort by count before the pivot does not change them |
| Cohorts.CohortsWithValue | app/utils.py:209 | the row labels whose cell in a column is not empty: each such label as often as it labels a row, and no other |
| Cohorts.ColumnValues | app/utils.py:209 | a column's values are one per row label that has a value in it, in row order: the k-th value is the cell of the k-th such label |
| Cohorts.ColumnMean | app/utils.py:209 | a column mean skips empty cells: NaN exactly when no row has a value in the column, otherwise the sum of the values over the number of rows that have one |
| Cohorts.AverageRetention | app/utils.py:209 | the mean retention is defined for every month index but the first (smallest) one, and each value is that column's `ColumnMean` |
| Cohorts.MatrixColumnMeanInUnitInterval | app/utils.py:209 | every column of the matrix has a value, and its mean lies in (0, 1] |
| Cohorts.AverageRetentionInUnitInterval | app/utils.py:209 | every point of the mean retention curve is a number in (0, 1] |
| Cohorts.RetentionM1Cases | app/utils.py:229 | M+1 is missing exactly when no row is one month old; otherwise it is a rate in (0, 1] |
| Cohorts.RetentionM1 | app/utils.py:229 | M+1 is missing exactly when the matrix has no column 1 (the lookup raises); otherwise it is `ColumnMean` of column 1, NaN exactly when that column is empty |
| Cohorts.RetentionM12 | app/utils.py:231-235 | M+12 is 0 without a column 12; otherwise it is `ColumnMean` of column 12, NaN exactly when that column is empty |
| Cohorts.RetentionM12Cases | app/utils.py:231-235 | M+12 is 0 when no row is twelve months old, otherwise a rate in (0, 1] |
| Scenarios.AssignSegment | app/pages/scenarios.py:20-30 | on integer scores the chain of conditionals is the lookup in the table of lower bounds 400/300/200/120: a partition without gap or overlap |
| Scenarios.IntegerScoreBands | app/pages/scenarios.py:20-30 | on integer scores: ≥ 400 Champions, 300–399 Fidèles, 200–299 Potentiels, 120–199 À Risque, anything else Perdus, each an if-and-only-if |
| Scenarios.AssignSegmentMonotoneOnIntegers | app/pages/scenarios.py:21-30 | on integer scores a higher score never gets a lower-ranked segment |
| Scenarios.GapScoresAreLost | app/pages/scenarios.py:23-30 | non-integer scores in (399, 400), (299, 300), (199, 200) and (119, 120) fall through to Perdus |
| Scenarios.WithSegments | app/pages/scenarios.py:32-33 | a missing `Segment` column is rebuilt from each row's score; an existing one is left as it is; no other value changes |
| Scenarios.SegmentRows | app/pages/scenarios.py:42 | the rows of the chosen segment are the rows labelled with it, each as many times as in the table, and no other |
| Scenarios.RfmCustomerCount | app/pages/scenarios.py:48 | `nunique()` of `Customer ID` is the number of distinct ids of the rows |
| Scenarios.ProfileOf | app/pages/scenarios.py:48-51 | a non-empty segment's profile counts its distinct customer ids, its rows, its total spend and its total orders; it has between 1 and `len` customers, at least as many orders as rows, and a mean order count of at least 1 |
| Scenarios.AovSeg | app/pages/scenarios.py:49-50 | `aov_seg` times the total orders gives back the total spend |
| Scenarios.FreqSeg | app/pages/scenarios.py:51 | `freq_seg` times the number of rows gives back the total orders, so it is at least 1 when there are at least as many orders as rows |
| Scenarios.SegmentProfile | app/pages/scenarios.py:42-51 | no profile exactly when no customer carries the segment (the page stops); otherwise the profile of the segment's rows |
| Scenarios.SpendWithinOrderBounds | app/pages/scenarios.py:49-50 | bounds on every customer's spend per order bound total spend against total orders |
| Scenarios.SegmentAovWithinCustomerAovs | app/pages/scenarios.py:49-50 | the segment AOV lies between the smallest and the largest per-customer `AOV` of the segment |
| Scenarios.BaselineRevenueIsMeanSpend | app/pages/scenarios.py:118 | `ca_base = aov_seg × freq_seg` is the segment's total spend spread over its rows |
| Scenarios.PageClv | app/pages/scenarios.py:93-107 | the page CLV is never negative and is 0 when retention is not positive |
| Scenarios.PageClvFactors | app/pages/scenarios.py:95-105 | otherwise it is profit per period × `r / (1 + d - r)`, clamped at 0, with no lifespan factor |
| Scenarios.PageClvPositiveIff | app/pages/scenarios.py:99-107 | the page CLV is positive exactly when retention is positive and profit and denominator have the same sign |
| Scenarios.PageClvIncreasingInRetention | app/pages/scenarios.py:93-107 | below the pole the page CLV never decreases as retention grows, whatever the margin's sign |
| Scenarios.PageClvAgreesWithUtilsClv | app/pages/scenarios.py:93-107 | where both formulas' guards pass and profit is non-negative, the page CLV is the utilities' CLV with a lifespan of 1 |
| Scenarios.PageClvDiffersAtZeroDiscount | app/pages/scenarios.py:99-107 | with a zero discount rate the utilities return 0 while the page returns a positive CLV |
| Scenarios.ScenarioRetention | app/pages/scenarios.py:122 | scenario retention is capped at 99, rises by at most the gain, equals base + gain below the cap, and never drops below the base |
| Scenarios.DiscountedAov | app/pages/scenarios.py:121 | a discount between 0 and 100 % gives an AOV between 0 and the original; no discount keeps it |
| Scenarios.CompareScenario | app/pages/scenarios.py:110-136 | `clv_base` is `PageClv` of the segment AOV and frequency at the base retention and margin; `ca_base` is the total spend per row; the scenario AOV is `DiscountedAov`, its retention `ScenarioRetention`, its margin base + delta; `clv_scen` is `PageClv` at those values and `ca_scen` = AOV × frequency; the deltas are scenario minus base, the revenue change being minus the discount share of `ca_base`; both CLVs are non-negative and scenario retention is at most 99 and rises by at most the gain |
| Scenarios.NeutralScenarioIsBaseline | app/pages/scenarios.py:110-136 | no discount, gain or margin change reproduces the baseline: all three deltas are 0 |
| Scenarios.RetentionGainNeverLowersClv | app/pages/scenarios.py:120-136 | a retention gain alone never lowers the CLV, and `delta_r` lies between 0 and the gain |
| Scenarios.GainGrid | app/pages/scenarios.py:189 | `range(0, gain_max + 1, 5)`: exactly the multiples of 5 from 0 to `gain_max`, in increasing order |
| Scenarios.RetentionGainSweep | app/pages/scenarios.py:189-201 | one scenario CLV per gain, in the gains' order, with retention capped at 99; with a non-negative discount rate the curve never decreases |
| Labels.Decimal | app/dashboard.py:89 | `str` of a natural number is a non-empty string of decimal digits |
| Labels.ParseDecimalOfDecimal | app/dashboard.py:89-91 | reading back the digits of `str(n)` gives `n` |
| Labels.QuarterOf | app/dashboard.py:91 | `dt.quarter` lies in 1..4, and quarter q holds months 3q-2 to 3q |
| Labels.QuarterLabel | app/dashboard.py:88-92 | a Quarter label reads back as its year and quarter |
| Labels.QuarterLabelIdentifiesQuarter | app/dashboard.py:88-92 | two dates share a Quarter label exactly when they fall in the same quarter of the same year |
| Labels.TwoDigits | app/dashboard.py:87 | the month of a period prints on two characters |
| Labels.MonthLabel | app/dashboard.py:87 | a Month label reads back as its year and month |
| Labels.MonthLabelIdentifiesMonth | app/dashboard.py:87 | two dates share a Month label exactly when they fall in the same month of the same year |
| Labels.QuarterCoarsensMonth | app/dashboard.py:87-92 | invoices of the same Month share their Quarter |
| Dashboard.Where | app/dashboard.py:147 | a boolean mask keeps every row that passes it, as many times as it was given, drops every other row, and never returns more rows than it was given |
| Dashboard.WhereAll | app/dashboard.py:141-155 | the masks together keep every row that passes all of them, as many times as it was given, and drop every other row |
| Dashboard.WhereAfterWhereAll | app/dashboard.py:144-155 | masking the kept rows once more is masking the input with one more criterion |
| Dashboard.PassesCriteria | app/dashboard.py:141-155 | a row passes the page's masks exactly when it is dated within the period (both ends included), is of the chosen country unless "Tous", reaches the threshold when there is a `TotalPrice` column, and has a positive quantity in mode "Exclure" |
| Dashboard.Criteria | app/dashboard.py:141-155 | the period mask comes first and is always applied; the country mask exactly when the choice is not "Tous"; the threshold exactly when there is a `TotalPrice` column; the positive-quantity mask exactly in mode "Exclure" with a `Quantity` column; no other mask |
| Dashboard.NeutralizeAll | app/dashboard.py:158 | every return line has `TotalPrice` set to 0; every other line is unchanged |
| Dashboard.FilteredRows | app/dashboard.py:141-158 | the filtered table never has more rows than the input; outside mode "Neutraliser" it holds each row that passes all masks as many times as the input does, and no other |
| Dashboard.NeutralizeInPlace | app/dashboard.py:157-158 | the array of rows afterwards is its old contents with the return lines neutralised |
| Dashboard.ApplyMasks | app/dashboard.py:141-155 | narrowing `df_f` one mask at a time gives the rows that pass all the page's masks |
| Dashboard.ApplyFilters | app/dashboard.py:141-158 | on a table with `Quantity` and `TotalPrice` columns, the filtered table keeps its columns, and its rows are the masked rows, neutralised in mode "Neutraliser" |
| Dashboard.FilteredRowsSound | app/dashboard.py:141-158 | every filtered row is in the period, of the chosen country, at or above the threshold (or a neutralised return at 0), and of positive quantity in mode "Exclure" |
| Dashboard.FilteredRowsComplete | app/dashboard.py:141-158 | every input row that passes all masks is in the filtered table, neutralised in mode "Neutraliser", and otherwise as many times as in the input |
| Dashboard.WhereAllIsSubsequence | app/dashboard.py:144-155 | masking keeps rows in their order |
| Dashboard.FilteredRowsKeepOrder | app/dashboard.py:144-158 | the filtered table is an order-preserving subsequence of the input, apart from the neutralised lines |
| Dashboard.ExcludeKeepsPositiveQuantities | app/dashboard.py:153-155 | mode "Exclure" keeps exactly the rows with a positive quantity among those the other filters keep |
| Dashboard.NeutraliseZeroesReturns | app/dashboard.py:157-158 | mode "Neutraliser" keeps every row the other filters keep, in place, zeroes `TotalPrice` on exactly the negative-quantity lines and changes nothing else |
| Dashboard.ThresholdDropsNegativeTotals | app/dashboard.py:119-150 | with a `TotalPrice` column and a threshold of at least 0, no filtered row has a negative total, even in mode "Inclure" |
| Dashboard.GuardedQuotient | app/dashboard.py:193 | `a / n if n > 0 else 0`: the quotient times `n` gives back `a`, and it is 0 for `n = 0` |
| Dashboard.KpiOverview | app/dashboard.py:190-208 | revenue is the `TotalPrice` total, orders the row count, customers the number of distinct customer ids (between 1 and the row count), AOV revenue per row, North Star revenue per customer; the frequency and lifespan are `AvgPurchaseFrequency` and `CustomerLifespan` of the table, and the baseline CLV is `CalculateClv` at r = 0.6, d = 0.1 and a 30 % margin of that AOV, frequency and lifespan |
| Dashboard.BaselineFactor | app/dashboard.py:198-206 | with r = 0.6, d = 0.1 and a 30 % margin the CLV is 0.36 × AOV × frequency × lifespan |
| Dashboard.BaselineClv | app/dashboard.py:198-206 | the overview's baseline CLV is 0.36 × its AOV × frequency × lifespan |
| Dashboard.OverviewFrequencyLifespan | app/dashboard.py:195-196 | with customer and date columns the overview's frequency is positive and its lifespan at least 1/365; without them they are 12 and 3 |
| Dashboard.InvoiceCountBounds | app/dashboard.py:319 | a customer's `nunique` invoice count is at least 1 and at most its row count |
| Dashboard.ExportRowsFor | app/dashboard.py:314-337 | one export line per customer asked for, each built from that customer's rows |
| Dashboard.ExportRowOf | app/dashboard.py:314-337 | a customer's export line carries its id, the `TotalPrice` sum of its rows, the number of distinct `InvoiceNo` of its rows (between 1 and its row count for a customer of the table), the mode of its countries and of its segments, and 0.3 × its revenue as estimated value |
| Dashboard.Activable | app/dashboard.py:314-323 | one export line per `groupby("CustomerID")` group, for each customer in turn |
| Dashboard.EstimatedTotalOfGroups | app/dashboard.py:337 | the estimated values of a list of customers add up to 0.3 × the sum of their revenues |
| Dashboard.ActivableRows | app/dashboard.py:314-337 | the export lists every customer once, with revenue its `TotalPrice` sum, its number of distinct invoices (between 1 and its row count), and an estimated value of 0.3 × revenue |
| Dashboard.ActivableTotal | app/dashboard.py:314-337 | the estimated values add up to 0.3 × the filtered table's revenue |
| Dashboard.MainCountryIsOneOfTheCustomers | app/dashboard.py:320 | when the mode picks one of its values, a customer's main country is the country of one of its lines |
| Dashboard.MainCountryOfGroup | app/dashboard.py:320 | when the mode picks one of its values, the main country of a customer of the table is the country of one of its lines |

## Left out

- The Streamlit interface is not modelled: page configuration, CSS, widgets, KPI cards, every chart (heatmap, density plot, retention curves, time-series and country charts, RFM bar chart) and every download (CSV, PNG, the action-plan text). It is presentation only. The sliders' values enter as parameters (`Filters`, `BusinessParams`).
- File reading (`read_parquet`, `read_csv`) is a parameter: `Loading.LoadData` takes the result of the read, `None` standing for a read that raised.
- `@st.cache_data` memoisation is framework behaviour and is not modelled.
- app/pages/segments.py and app/pages/cohortes.py are not part of this model. They import functions (`compute_scenario`, `add_download_button`, …) that none of the modelled files define.
- The derivation of `Cohort` and `CohortIndex` from the invoice dates does not appear in the modelled code. They are fields of each row (`Frames.Txn`).
- Floating-point rounding, infinities and numpy scalar semantics are not modelled: arithmetic is over exact reals, and NaN appears only as the mean of an empty series (`Seqs.Stat`). With numpy scalar inputs a zero denominator in either CLV formula yields an infinity rather than the caught division error; the model follows the plain Python float behaviour and returns 0.
- CustomerStats.AvgPurchaseFrequency: the `except` fallback to 12 (app/utils.py:42-43) is not modelled. Over typed columns no aggregation of the model raises.
- CustomerStats.CustomerLifespan: the `except` fallback to 3 (app/utils.py:53-54) is not modelled, for the same reason.
- Timestamps carry seconds, not nanoseconds, and no time zone. `pd.to_datetime` parsing (app/dashboard.py:86) is not modelled: dates are given as values.
- pandas `mode()` tie-breaking (app/dashboard.py:320-321) is not modelled. The mode is a parameter `mode`, constrained only where a lemma says so.
- Dashboard.Activable: customers come in order of first appearance, where `groupby` sorts them by `CustomerID`. Every property stated about the export holds whatever the order.
- Cohorts.CohortMatrix: the row and column labels come in order of first appearance, where `pivot_table` sorts them. The cell values, which are what is stated, do not depend on the order. `AverageRetention` drops the smallest index, as `iloc[:, 1:]` does on the sorted columns.
- The revenue-by-period series (app/dashboard.py:231-238), the top-10 countries (255-261) and the RFM aggregation table (281-293) are chart data and are not modelled. The period labels they group by are (`Labels`).
- The debug counts of return lines (app/dashboard.py:171-180) only display values and are not modelled. They read the `Quantity` column of the unfiltered table, so a table without `Quantity` raises KeyError at line 171. The model does not represent that crash.
- Dashboard.ApplyFilters: requires the `Quantity` and `TotalPrice` columns. Without `Quantity` the page raises right after the filters (line 171). Without `TotalPrice`, modes "Inclure" and "Exclure" raise at line 190. In mode "Neutraliser", line 158 creates a `TotalPrice` column that is 0 on return lines and NaN elsewhere. A per-row NaN total is not representable (`Frames.Txn.totalPrice` is a real), so that case is not modelled.
- Dashboard.KpiOverview: requires the `TotalPrice` and `CustomerID` columns, which lines 190-191 read unguarded (KeyError otherwise).
- Dashboard.Activable: requires the five aggregated columns `CustomerID`, `TotalPrice`, `InvoiceNo`, `Country` and `RFM_Segment`; `groupby(...).agg` raises KeyError when one is missing (app/dashboard.py:314-321). The `"RFM_Segment" in df_f.columns` test inside the segment lambda therefore never sees a missing column. `ExportRowOf` keeps the test as written.
- The sidebar reads `df["Country"]` (app/dashboard.py:116) before any filter, so a table without `Country` raises there. A table without `InvoiceDate` stops the page at line 95. Neither early exit is modelled.
- Scenarios.RfmCustomer: `orderCount` is a positive integer. A CSV count of 0 would make pandas divide by zero in the `AOV` column (app/pages/scenarios.py:36), giving an infinity, and in `aov_seg` when the whole segment has 0 orders. Those infinities are not modelled.
- Frames.Txn: `customerId` is always an integer. Rows with a missing (NaN) `CustomerID` are dropped by `groupby` and by `nunique()` (app/utils.py:38, 50; app/dashboard.py:191, 315). The model has no such rows, so it counts every row towards a customer.
- The sidebar's defaults and bounds (the date range of the data, the 95 % quantile bounding the threshold) are not modelled. Only the threshold's lower bound 0 enters, as the hypothesis of `Dashboard.ThresholdDropsNegativeTotals`.
- The scenario page's list of segments offered (`sorted(unique())`, app/pages/scenarios.py:39) is not modelled: the chosen segment is a parameter. Likewise the `astype(int)` of the customer id (line 14): ids are integers already.
- The action-plan totals (`delta × nb_clients`, app/pages/scenarios.py:242-244) are only formatted into the exported text, and are not modelled.

=== FILE: clv.dfy ===
/** Customer lifetime value as computed for the dashboard's KPI row
    (`calculate_clv` in app/utils.py). Rates are fractions: `r` is the
    retention rate, `d` the discount rate; `marge` is the gross margin in
    percent. */
module Clv {

  /** CLV = AOV x margin x frequency x r / (1 + d - r) x lifespan.
      Returns 0 when r <= 0 or d <= 0, and 0 when 1 + d - r is exactly zero
      (the division error the source catches). A negative denominator
      (r > 1 + d) is not guarded. */
  function CalculateClv(r: real, d: real, aov: real, freq: real, lifespan: real, marge: real): (clv: real)
    ensures r <= 0.0 || d <= 0.0 || 1.0 + d - r == 0.0 ==> clv == 0.0
  {
    if r <= 0.0 || d <= 0.0 then 0.0
    else if 1.0 + d - r == 0.0 then 0.0
    else
      var aovWithMargin := aov * (marge / 100.0);
      var clvPerPeriod := (aovWithMargin * freq * r) / (1.0 + d - r);
      clvPerPeriod * lifespan
  }

  /** The retention multiplier r / (c - r) grows with r below the pole c. */
  lemma RetentionFactorIncreasing(c: real, r1: real, r2: real)
    requires 0.0 < r1 <= r2 < c
    ensures 0.0 < r1 / (c - r1) <= r2 / (c - r2)
  {
    var a, b := c - r1, c - r2;
    assert 0.0 < b <= a;
    assert r1 * b <= r2 * a by {
      assert r1 * b == r1 * c - r1 * r2;
      assert r2 * a == r2 * c - r1 * r2;
      assert r1 * c <= r2 * c;
    }
    calc {
      r1 / a;
      == (r1 * b) / (a * b);
      <= { assert a * b > 0.0; } (r2 * a) / (a * b);
      == r2 / b;
    }
  }

  /** Multiplying both sides of an inequality by a non-negative factor. */
  lemma ScaleMonotone(k: real, x: real, y: real)
    requires 0.0 <= k && x <= y
    ensures k * x <= k * y
  {
  }

  /** Regrouping of the source's expression: profit per period, times the
      retention multiplier, times the lifespan. */
  lemma ClvFactors(r: real, d: real, aov: real, freq: real, lifespan: real, marge: real)
    requires 0.0 < r && 0.0 < d && 1.0 + d - r != 0.0
    ensures CalculateClv(r, d, aov, freq, lifespan, marge)
         == (aov * (marge / 100.0) * freq) * (r / (1.0 + d - r)) * lifespan
  {
    var den := 1.0 + d - r;
    var p := aov * (marge / 100.0) * freq;
    assert (p * r) / den == p * (r / den);
  }

  /** Total CLV is the CLV of one period of lifespan times the lifespan:
      the lifespan is a plain multiplier and enters no guard. */
  lemma ClvPerPeriodTimesLifespan(r: real, d: real, aov: real, freq: real, lifespan: real, marge: real)
    ensures CalculateClv(r, d, aov, freq, lifespan, marge)
         == CalculateClv(r, d, aov, freq, 1.0, marge) * lifespan
  {
  }

  /** Below the pole (0 < r < 1 + d) and with non-negative inputs the CLV is
      non-negative, and positive exactly when none of AOV, margin, frequency
      and lifespan is zero. */
  lemma ClvNonNegativeBelowPole(r: real, d: real, aov: real, freq: real, lifespan: real, marge: real)
    requires 0.0 < d && 0.0 < r < 1.0 + d
    requires 0.0 <= aov && 0.0 <= freq && 0.0 <= lifespan && 0.0 <= marge
    ensures CalculateClv(r, d, aov, freq, lifespan, marge) >= 0.0
    ensures CalculateClv(r, d, aov, freq, lifespan, marge) > 0.0
        <==> aov * freq * lifespan * marge > 0.0
  {
    ClvFactors(r, d, aov, freq, lifespan, marge);
    var p := aov * (marge / 100.0) * freq;
    var f := r / (1.0 + d - r);
    assert f > 0.0 by {
      RetentionFactorIncreasing(1.0 + d, r, r);
    }
    assert p >= 0.0;
    assert p * f >= 0.0;
    assert (p * f) * lifespan >= 0.0;
    assert p > 0.0 <==> aov * freq * marge > 0.0;
    assert (p * f) * lifespan > 0.0 <==> p > 0.0 && lifespan > 0.0;
  }

  /** Past the pole (r > 1 + d) the denominator is negative and is not
      guarded: positive inputs give a negative CLV rather than 0. */
  lemma ClvNegativePastPole(r: real, d: real, aov: real, freq: real, lifespan: real, marge: real)
    requires 0.0 < d && r > 1.0 + d
    requires 0.0 < aov && 0.0 < freq && 0.0 < lifespan && 0.0 < marge
    ensures CalculateClv(r, d, aov, freq, lifespan, marge) < 0.0
  {
    ClvFactors(r, d, aov, freq, lifespan, marge);
    var p := aov * (marge / 100.0) * freq;
    var f := r / (1.0 + d - r);
    assert f < 0.0 by {
      var den := 1.0 + d - r;
      assert den < 0.0;
      assert f * den == r;
      assert -f == r / (r - 1.0 - d);
    }
    assert p > 0.0;
    assert p * f < 0.0;
    assert (p * f) * lifespan < 0.0;
  }

  /** With non-negative inputs the CLV grows with the retention rate while
      the rate stays below the pole 1 + d. */
  lemma ClvIncreasingInRetention(r1: real, r2: real, d: real, aov: real, freq: real, lifespan: real, marge: real)
    requires 0.0 < d && 0.0 < r1 <= r2 < 1.0 + d
    requires 0.0 <= aov && 0.0 <= freq && 0.0 <= lifespan && 0.0 <= marge
    ensures CalculateClv(r1, d, aov, freq, lifespan, marge) <= CalculateClv(r2, d, aov, freq, lifespan, marge)
  {
    var c1 := CalculateClv(r1, d, aov, freq, 1.0, marge);
    var c2 := CalculateClv(r2, d, aov, freq, 1.0, marge);
    PerPeriodClvIncreasing(r1, r2, d, aov, freq, marge);
    ClvPerPeriodTimesLifespan(r1, d, aov, freq, lifespan, marge);
    ClvPerPeriodTimesLifespan(r2, d, aov, freq, lifespan, marge);
    assert c1 * lifespan <= c2 * lifespan by {
      ScaleMonotone(lifespan, c1, c2);
    }
  }

  /** The CLV of one period of lifespan grows with the retention rate below the pole. */
  lemma PerPeriodClvIncreasing(r1: real, r2: real, d: real, aov: real, freq: real, marge: real)
    requires 0.0 < d && 0.0 < r1 <= r2 < 1.0 + d
    requires 0.0 <= aov && 0.0 <= freq && 0.0 <= marge
    ensures CalculateClv(r1, d, aov, freq, 1.0, marge) <= CalculateClv(r2, d, aov, freq, 1.0, marge)
  {
    var p := aov * (marge / 100.0) * freq;
    MarginProductNonNegative(aov, marge, freq);
    RetentionFactorIncreasing(1.0 + d, r1, r2);
    ScaleMonotone(p, r1 / (1.0 + d - r1), r2 / (1.0 + d - r2));
    ClvFactors(r1, d, aov, freq, 1.0, marge);
    ClvFactors(r2, d, aov, freq, 1.0, marge);
  }

  lemma MarginProductNonNegative(aov: real, marge: real, freq: real)
    requires 0.0 <= aov && 0.0 <= marge && 0.0 <= freq
    ensures aov * (marge / 100.0) * freq >= 0.0
  {
    ScaleMonotone(aov, 0.0, marge / 100.0);
    ScaleMonotone(freq, 0.0, aov * (marge / 100.0));
  }

  /** A worked example: AOV 100, frequency 2, r = 0.7,
      d = 0.1, margin 30 % gives 105 per period of lifespan. */
  lemma ClvWorkedExample(lifespan: real)
    ensures CalculateClv(0.7, 0.1, 100.0, 2.0, lifespan, 30.0) == 105.0 * lifespan
  {
  }
}

=== FILE: cohorts.dfy ===
/** The cohort retention matrix (`compute_cohort_matrix`, identical in
    app/utils.py, app/cohortes.py and notebooks/test_streamlit.py) and the
    views the dashboard derives from it: mean retention per month of age
    without the first column, and the M+1 and M+12 indicators.

    A cell (cohort, index) counts the distinct customers of that cohort
    seen at that month of age; its rate is that count over the largest
    count of the cohort (`transform('max')`). Cohort labels and indices are
    inputs: they come precomputed with the rows. */
module Cohorts {
  import opened Seqs
  import opened Frames

  /** A cell of the matrix: a cohort label and a month index. */
  type Cell = (string, int)

  /** The distinct customers of cohort `c` seen at month index `i`. */
  function CustomersIn(rows: seq<Txn>, c: string, i: int): set<int>
  {
    set r | r in rows && r.cohort == c && r.cohortIndex == i :: r.customerId
  }

  /** `nunique()` of the customer column within one group. */
  function CellCount(rows: seq<Txn>, c: string, i: int): nat
  {
    |CustomersIn(rows, c, i)|
  }

  /** The groups of `groupby(['Cohort', 'CohortIndex'])`. */
  function CellsOf(rows: seq<Txn>): set<Cell>
  {
    set r | r in rows :: (r.cohort, r.cohortIndex)
  }

  /** A group that occurs has at least one customer. */
  lemma CellCountPositive(rows: seq<Txn>, c: string, i: int)
    requires (c, i) in CellsOf(rows)
    ensures CellCount(rows, c, i) >= 1
  {
    var r :| r in rows && (r.cohort, r.cohortIndex) == (c, i);
    assert r.customerId in CustomersIn(rows, c, i);
  }

  /** The largest count among the cells of cohort `c` met in `rows[..n]`, 0 if none. */
  function MaxCountUpTo(rows: seq<Txn>, c: string, n: nat): (m: nat)
    requires n <= |rows|
    ensures forall j :: 0 <= j < n && rows[j].cohort == c ==> CellCount(rows, c, rows[j].cohortIndex) <= m
    ensures m == 0 || exists j :: 0 <= j < n && rows[j].cohort == c && CellCount(rows, c, rows[j].cohortIndex) == m
  {
    if n == 0 then 0
    else
      var prev := MaxCountUpTo(rows, c, n - 1);
      var r := rows[n - 1];
      if r.cohort == c && CellCount(rows, c, r.cohortIndex) > prev then CellCount(rows, c, r.cohortIndex)
      else prev
  }

  /** `groupby('Cohort')['Total Customers'].transform('max')`: the largest
      count over the cohort's cells, reached in one of them when the cohort
      occurs. */
  function CohortMax(rows: seq<Txn>, c: string): (m: nat)
    ensures forall i :: (c, i) in CellsOf(rows) ==> CellCount(rows, c, i) <= m
    ensures (exists i :: (c, i) in CellsOf(rows)) ==>
      exists i :: (c, i) in CellsOf(rows) && CellCount(rows, c, i) == m
  {
    var m := MaxCountUpTo(rows, c, |rows|);
    assert forall i :: (c, i) in CellsOf(rows) ==> CellCount(rows, c, i) <= m by {
      forall i | (c, i) in CellsOf(rows) ensures CellCount(rows, c, i) <= m {
        var r :| r in rows && (r.cohort, r.cohortIndex) == (c, i);
        var j :| 0 <= j < |rows| && rows[j] == r;
      }
    }
    assert (exists i :: (c, i) in CellsOf(rows)) ==>
      exists i :: (c, i) in CellsOf(rows) && CellCount(rows, c, i) == m by {
      if i :| (c, i) in CellsOf(rows) {
        CellCountPositive(rows, c, i);
        var j :| 0 <= j < |rows| && rows[j].cohort == c && CellCount(rows, c, rows[j].cohortIndex) == m;
        assert (c, rows[j].cohortIndex) in CellsOf(rows);
      }
    }
    m
  }

  /** A count over a larger positive count. */
  function Ratio(a: nat, b: nat): real
    requires b > 0
  {
    a as real / b as real
  }

  /** A ratio of a positive count to a count at least as large lies in (0, 1],
      and is 1 exactly when the counts are equal. */
  lemma RatioInUnitInterval(a: nat, b: nat)
    requires 1 <= a <= b
    ensures 0.0 < Ratio(a, b) <= 1.0
    ensures Ratio(a, b) == 1.0 <==> a == b
  {
    var q, x, y := Ratio(a, b), a as real, b as real;
    assert q * y == x;
    assert (1.0 - q) * y == y - x;
  }

  /** `retention_rate` of an occurring cell. */
  function RetentionRate(rows: seq<Txn>, c: string, i: int): real
    requires (c, i) in CellsOf(rows)
  {
    CellCountPositive(rows, c, i);
    Ratio(CellCount(rows, c, i), CohortMax(rows, c))
  }

  /** The cohort labels of the rows. */
  function CohortLabels(rows: seq<Txn>): (ls: seq<string>)
    ensures |ls| == |rows|
    ensures forall k :: 0 <= k < |rows| ==> ls[k] == rows[k].cohort
  {
    seq(|rows|, k requires 0 <= k < |rows| => rows[k].cohort)
  }

  /** The month indices of the rows. */
  function IndexLabels(rows: seq<Txn>): (ls: seq<int>)
    ensures |ls| == |rows|
    ensures forall k :: 0 <= k < |rows| ==> ls[k] == rows[k].cohortIndex
  {
    seq(|rows|, k requires 0 <= k < |rows| => rows[k].cohortIndex)
  }

  /** The result of `pivot_table(index='Cohort', columns='CohortIndex')`:
      its row labels, its column labels, and the cells that hold a value
      (a missing key is an empty, NaN, cell). */
  datatype Pivot = Pivot(cohorts: seq<string>, indices: seq<int>, cells: map<Cell, real>)

  /** `compute_cohort_matrix`. */
  function CohortMatrix(rows: seq<Txn>): (p: Pivot)
    ensures forall c :: c in p.cohorts <==> exists r :: r in rows && r.cohort == c
    ensures forall i :: i in p.indices <==> exists r :: r in rows && r.cohortIndex == i
    ensures p.cells.Keys == CellsOf(rows)
    ensures forall a, b :: 0 <= a < b < |p.cohorts| ==> p.cohorts[a] != p.cohorts[b]
    ensures forall a, b :: 0 <= a < b < |p.indices| ==> p.indices[a] != p.indices[b]
  {
    var cs := CohortLabels(rows);
    var ixs := IndexLabels(rows);
    assert forall c :: c in cs <==> exists r :: r in rows && r.cohort == c by {
      forall c ensures c in cs <==> exists r :: r in rows && r.cohort == c {
        if c in cs {
          var k :| 0 <= k < |cs| && cs[k] == c;
          assert rows[k] in rows;
        }
        if r :| r in rows && r.cohort == c {
          var k :| 0 <= k < |rows| && rows[k] == r;
          assert cs[k] == c;
        }
      }
    }
    assert forall i :: i in ixs <==> exists r :: r in rows && r.cohortIndex == i by {
      forall i ensures i in ixs <==> exists r :: r in rows && r.cohortIndex == i {
        if i in ixs {
          var k :| 0 <= k < |ixs| && ixs[k] == i;
          assert rows[k] in rows;
        }
        if r :| r in rows && r.cohortIndex == i {
          var k :| 0 <= k < |rows| && rows[k] == r;
          assert ixs[k] == i;
        }
      }
    }
    Pivot(Distinct(cs), Distinct(ixs),
          map cell | cell in CellsOf(rows) :: RetentionRate(rows, cell.0, cell.1))
  }

  /** An occurring cell holds its count over the cohort's largest count. */
  lemma MatrixCell(rows: seq<Txn>, c: string, i: int)
    requires (c, i) in CellsOf(rows)
    ensures 1 <= CellCount(rows, c, i) <= CohortMax(rows, c)
    ensures (c, i) in CohortMatrix(rows).cells
    ensures CohortMatrix(rows).cells[(c, i)] == Ratio(CellCount(rows, c, i), CohortMax(rows, c))
  {
    CellCountPositive(rows, c, i);
  }

  /** Every value of the matrix lies in (0, 1]. */
  lemma MatrixValuesInUnitInterval(rows: seq<Txn>)
    ensures forall cell :: cell in CohortMatrix(rows).cells ==>
      0.0 < CohortMatrix(rows).cells[cell] <= 1.0
  {
    forall cell | cell in CohortMatrix(rows).cells
      ensures 0.0 < CohortMatrix(rows).cells[cell] <= 1.0
    {
      MatrixCell(rows, cell.0, cell.1);
      RatioInUnitInterval(CellCount(rows, cell.0, cell.1), CohortMax(rows, cell.0));
    }
  }

  /** Every cohort row of the matrix holds a 1: at its largest cell. */
  lemma EveryCohortHasFullCell(rows: seq<Txn>, c: string)
    requires c in CohortMatrix(rows).cohorts
    ensures exists i :: (c, i) in CohortMatrix(rows).cells && CohortMatrix(rows).cells[(c, i)] == 1.0
  {
    var r :| r in rows && r.cohort == c;
    assert (c, r.cohortIndex) in CellsOf(rows);
    var i :| (c, i) in CellsOf(rows) && CellCount(rows, c, i) == CohortMax(rows, c);
    MatrixCell(rows, c, i);
    RatioInUnitInterval(CellCount(rows, c, i), CohortMax(rows, c));
  }

  /** The month-0 rate is 1 exactly when month 0 holds the cohort's largest
      distinct-customer count. */
  lemma IndexZeroFullIff(rows: seq<Txn>, c: string)
    requires (c, 0) in CellsOf(rows)
    ensures CohortMatrix(rows).cells[(c, 0)] == 1.0 <==> CellCount(rows, c, 0) == CohortMax(rows, c)
  {
    MatrixCell(rows, c, 0);
    RatioInUnitInterval(CellCount(rows, c, 0), CohortMax(rows, c));
  }

  /** When every customer of a cohort was already seen at month 0, the
      cohort's largest count is its month-0 count. */
  lemma AcquisitionMonthIsLargest(rows: seq<Txn>, c: string)
    requires (c, 0) in CellsOf(rows)
    requires forall i :: (c, i) in CellsOf(rows) ==> CustomersIn(rows, c, i) <= CustomersIn(rows, c, 0)
    ensures CohortMax(rows, c) == CellCount(rows, c, 0)
  {
    var i :| (c, i) in CellsOf(rows) && CellCount(rows, c, i) == CohortMax(rows, c);
    SubsetCardinality(CustomersIn(rows, c, i), CustomersIn(rows, c, 0));
  }

  /** With every customer of a cohort seen at month 0, the cohort's rates
      are its counts over the month-0 count, and month 0 is 1. */
  lemma AcquisitionMonthRates(rows: seq<Txn>, c: string, i: int)
    requires (c, 0) in CellsOf(rows) && (c, i) in CellsOf(rows)
    requires forall j :: (c, j) in CellsOf(rows) ==> CustomersIn(rows, c, j) <= CustomersIn(rows, c, 0)
    ensures CellCount(rows, c, 0) >= 1
    ensures CohortMatrix(rows).cells[(c, i)] == Ratio(CellCount(rows, c, i), CellCount(rows, c, 0))
    ensures CohortMatrix(rows).cells[(c, 0)] == 1.0
  {
    AcquisitionMonthIsLargest(rows, c);
    MatrixCell(rows, c, i);
    IndexZeroFullIff(rows, c);
  }

  /** A subset is no larger than its superset. */
  lemma SubsetCardinality(a: set<int>, b: set<int>)
    requires a <= b
    ensures |a| <= |b|
  {
    assert b == a + (b - a);
  }

  /** The (cohort, index, customer) facts a table holds, whatever the order
      or repetition of its rows. */
  function Facts(rows: seq<Txn>): set<(string, int, int)>
  {
    set r | r in rows :: (r.cohort, r.cohortIndex, r.customerId)
  }

  /** Two tables with the same facts have the same groups, counts and maxima. */
  lemma SameFactsSameCounts(rows1: seq<Txn>, rows2: seq<Txn>)
    requires Facts(rows1) == Facts(rows2)
    ensures CellsOf(rows1) == CellsOf(rows2)
    ensures forall c, i :: CustomersIn(rows1, c, i) == CustomersIn(rows2, c, i)
    ensures forall c :: CohortMax(rows1, c) == CohortMax(rows2, c)
  {
    forall c, i ensures CustomersIn(rows1, c, i) == CustomersIn(rows2, c, i) {
      SameFactsSameCustomers(rows1, rows2, c, i);
    }
    SameFactsSameCells(rows1, rows2);
    forall c ensures CohortMax(rows1, c) == CohortMax(rows2, c) {
      assert forall i :: CellCount(rows1, c, i) == CellCount(rows2, c, i);
      assert forall i :: (c, i) in CellsOf(rows1) <==> (c, i) in CellsOf(rows2);
      SameCountsSameMax(rows1, rows2, c);
    }
  }

  lemma SameFactsSameCells(rows1: seq<Txn>, rows2: seq<Txn>)
    requires Facts(rows1) == Facts(rows2)
    ensures CellsOf(rows1) == CellsOf(rows2)
  {
    forall cell | cell in CellsOf(rows1) ensures cell in CellsOf(rows2) {
      var r :| r in rows1 && (r.cohort, r.cohortIndex) == cell;
      assert (r.cohort, r.cohortIndex, r.customerId) in Facts(rows2);
    }
    forall cell | cell in CellsOf(rows2) ensures cell in CellsOf(rows1) {
      var r :| r in rows2 && (r.cohort, r.cohortIndex) == cell;
      assert (r.cohort, r.cohortIndex, r.customerId) in Facts(rows1);
    }
  }

  /** The cohort maximum depends only on the cells and their counts. */
  lemma SameCountsSameMax(rows1: seq<Txn>, rows2: seq<Txn>, c: string)
    requires forall i :: (c, i) in CellsOf(rows1) <==> (c, i) in CellsOf(rows2)
    requires forall i :: CellCount(rows1, c, i) == CellCount(rows2, c, i)
    ensures CohortMax(rows1, c) == CohortMax(rows2, c)
  {
    MaxAtMost(rows1, rows2, c);
    MaxAtMost(rows2, rows1, c);
  }

  /** A cohort whose cells all occur, with the same counts, in another
      table has no larger maximum there. */
  lemma MaxAtMost(rows1: seq<Txn>, rows2: seq<Txn>, c: string)
    requires forall i :: (c, i) in CellsOf(rows1) ==> (c, i) in CellsOf(rows2)
    requires forall i :: CellCount(rows1, c, i) == CellCount(rows2, c, i)
    ensures CohortMax(rows1, c) <= CohortMax(rows2, c)
  {
    var m1 := CohortMax(rows1, c);
    if m1 != 0 {
      var j :| 0 <= j < |rows1| && rows1[j].cohort == c && CellCount(rows1, c, rows1[j].cohortIndex) == m1;
      var i := rows1[j].cohortIndex;
      assert (c, i) in CellsOf(rows1) by {
        assert rows1[j] in rows1;
      }
      assert CellCount(rows2, c, i) <= CohortMax(rows2, c);
    }
  }

  lemma SameFactsSameCustomers(rows1: seq<Txn>, rows2: seq<Txn>, c: string, i: int)
    requires Facts(rows1) == Facts(rows2)
    ensures CustomersIn(rows1, c, i) == CustomersIn(rows2, c, i)
  {
    forall x | x in CustomersIn(rows1, c, i) ensures x in CustomersIn(rows2, c, i) {
      var r :| r in rows1 && r.cohort == c && r.cohortIndex == i && r.customerId == x;
      assert (c, i, x) in Facts(rows2);
      var r2 :| r2 in rows2 && (r2.cohort, r2.cohortIndex, r2.customerId) == (c, i, x);
    }
    forall x | x in CustomersIn(rows2, c, i) ensures x in CustomersIn(rows1, c, i) {
      var r :| r in rows2 && r.cohort == c && r.cohortIndex == i && r.customerId == x;
      assert (c, i, x) in Facts(rows1);
      var r1 :| r1 in rows1 && (r1.cohort, r1.cohortIndex, r1.customerId) == (c, i, x);
    }
  }

  /** The matrix values do not depend on the order of the rows nor on
      repeated rows of a customer within a cell (the sort by count before
      the pivot does not change them either). */
  lemma MatrixIndependentOfOrderAndRepeats(rows1: seq<Txn>, rows2: seq<Txn>)
    requires Facts(rows1) == Facts(rows2)
    ensures CohortMatrix(rows1).cells == CohortMatrix(rows2).cells
  {
    SameFactsSameCounts(rows1, rows2);
  }

  // ---------------------------------------------------------------------
  // Views derived from the matrix
  // ---------------------------------------------------------------------

  /** The row labels whose cell in column `i` holds a value, in row order,
      each as often as it labels a row. */
  function CohortsWithValue(cells: map<Cell, real>, cohorts: seq<string>, i: int): (ws: seq<string>)
    ensures forall c :: c in ws <==> c in cohorts && (c, i) in cells
    ensures forall c :: multiset(ws)[c] == if (c, i) in cells then multiset(cohorts)[c] else 0
  {
    if cohorts == [] then []
    else
      var c := cohorts[|cohorts| - 1];
      var init := cohorts[..|cohorts| - 1];
      assert cohorts == init + [c];
      CohortsWithValue(cells, init, i) + (if (c, i) in cells then [c] else [])
  }

  /** The values column `i` holds, row by row (empty cells skipped): one
      value per row label that has one, in row order. */
  function ColumnValues(cells: map<Cell, real>, cohorts: seq<string>, i: int): (vs: seq<real>)
    ensures |vs| == |CohortsWithValue(cells, cohorts, i)|
    ensures forall k :: 0 <= k < |vs| ==>
      (CohortsWithValue(cells, cohorts, i)[k], i) in cells &&
      vs[k] == cells[(CohortsWithValue(cells, cohorts, i)[k], i)]
  {
    if cohorts == [] then []
    else
      var c := cohorts[|cohorts| - 1];
      var init := cohorts[..|cohorts| - 1];
      var vs0 := ColumnValues(cells, init, i);
      var ws0 := CohortsWithValue(cells, init, i);
      var ws := CohortsWithValue(cells, cohorts, i);
      if (c, i) in cells then
        assert ws == ws0 + [c];
        var vs := vs0 + [cells[(c, i)]];
        assert forall k :: 0 <= k < |vs| ==> (ws[k], i) in cells && vs[k] == cells[(ws[k], i)] by {
          forall k | 0 <= k < |vs| ensures (ws[k], i) in cells && vs[k] == cells[(ws[k], i)] {
            if k < |ws0| {
              assert ws[k] == ws0[k] && vs[k] == vs0[k];
            }
          }
        }
        vs
      else
        assert ws == ws0 + [] == ws0;
        vs0
  }

  /** `cohorts_pivot[i].mean()`: NaN when the column holds no value,
      otherwise the sum of its values over the number of rows that have one. */
  function ColumnMean(p: Pivot, i: int): (m: Stat)
    ensures m.NaN? <==> forall c :: c in p.cohorts ==> (c, i) !in p.cells
    ensures m.Num? ==>
      m.value == Sum(ColumnValues(p.cells, p.cohorts, i)) / |CohortsWithValue(p.cells, p.cohorts, i)| as real
  {
    var ws := CohortsWithValue(p.cells, p.cohorts, i);
    assert ws != [] ==> ws[0] in ws;
    Mean(ColumnValues(p.cells, p.cohorts, i))
  }

  /** `cohorts_pivot.iloc[:, 1:].mean(axis=0)`: the mean of every column
      but the first, that is the smallest month index. */
  function AverageRetention(p: Pivot): (avg: map<int, Stat>)
    ensures p.indices == [] ==> avg == map[]
    ensures p.indices != [] ==> avg.Keys == (set i | i in p.indices) - {Min(p.indices)}
    ensures forall i :: i in avg ==> avg[i] == ColumnMean(p, i)
  {
    if p.indices == [] then map[]
    else
      var first := Min(p.indices);
      map i | i in p.indices && i != first :: ColumnMean(p, i)
  }

  /** Retention at M+1: the mean of column 1, or None when the matrix has
      no column 1 (the lookup raises). */
  function RetentionM1(p: Pivot): (r: Option<Stat>)
    ensures r.None? <==> 1 !in p.indices
    ensures r.Some? ==> r.value == ColumnMean(p, 1)
    ensures r.Some? ==> (r.value.NaN? <==> forall c :: c in p.cohorts ==> (c, 1) !in p.cells)
  {
    if 1 in p.indices then Some(ColumnMean(p, 1)) else None
  }

  /** Retention at M+12: the mean of column 12, or 0 when the matrix has no
      column 12 yet. */
  function RetentionM12(p: Pivot): (r: Stat)
    ensures 12 !in p.indices ==> r == Num(0.0)
    ensures 12 in p.indices ==> r == ColumnMean(p, 12)
    ensures 12 in p.indices ==> (r.NaN? <==> forall c :: c in p.cohorts ==> (c, 12) !in p.cells)
  {
    if 12 in p.indices then ColumnMean(p, 12) else Num(0.0)
  }

  /** Every column of the matrix holds a value, and column means lie in (0, 1]. */
  lemma MatrixColumnMeanInUnitInterval(rows: seq<Txn>, i: int)
    requires i in CohortMatrix(rows).indices
    ensures ColumnMean(CohortMatrix(rows), i).Num?
    ensures 0.0 < ColumnMean(CohortMatrix(rows), i).value <= 1.0
  {
    var p := CohortMatrix(rows);
    var r :| r in rows && r.cohortIndex == i;
    assert r.cohort in p.cohorts && (r.cohort, i) in p.cells;
    var vs := ColumnValues(p.cells, p.cohorts, i);
    MatrixValuesInUnitInterval(rows);
    forall k | 0 <= k < |vs| ensures 0.0 < vs[k] <= 1.0 {
      assert CohortsWithValue(p.cells, p.cohorts, i)[k] in CohortsWithValue(p.cells, p.cohorts, i);
    }
    MeanBounds(vs, 0.0, 1.0);
    MeanPositive(vs);
  }

  /** The mean retention curve covers every month index but the smallest,
      with values in (0, 1]. */
  lemma AverageRetentionInUnitInterval(rows: seq<Txn>)
    ensures forall i :: i in AverageRetention(CohortMatrix(rows)) ==>
      AverageRetention(CohortMatrix(rows))[i].Num? &&
      0.0 < AverageRetention(CohortMatrix(rows))[i].value <= 1.0
  {
    var p := CohortMatrix(rows);
    forall i | i in AverageRetention(p)
      ensures AverageRetention(p)[i].Num? && 0.0 < AverageRetention(p)[i].value <= 1.0
    {
      MatrixColumnMeanInUnitInterval(rows, i);
    }
  }

  /** M+1 is missing exactly when no row is one month old; otherwise it is
      a rate in (0, 1]. */
  lemma RetentionM1Cases(rows: seq<Txn>)
    ensures RetentionM1(CohortMatrix(rows)).None? <==> forall r :: r in rows ==> r.cohortIndex != 1
    ensures RetentionM1(CohortMatrix(rows)).Some? ==>
      RetentionM1(CohortMatrix(rows)).value.Num? &&
      0.0 < RetentionM1(CohortMatrix(rows)).value.value <= 1.0
  {
    if 1 in CohortMatrix(rows).indices {
      MatrixColumnMeanInUnitInterval(rows, 1);
    }
  }

  /** M+12 is 0 when no row is twelve months old, otherwise a rate in (0, 1]. */
  lemma RetentionM12Cases(rows: seq<Txn>)
    ensures (forall r :: r in rows ==> r.cohortIndex != 12) ==> RetentionM12(CohortMatrix(rows)) == Num(0.0)
    ensures (exists r :: r in rows && r.cohortIndex == 12) ==>
      RetentionM12(CohortMatrix(rows)).Num? && 0.0 < RetentionM12(CohortMatrix(rows)).value <= 1.0
  {
    if 12 in CohortMatrix(rows).indices {
      MatrixColumnMeanInUnitInterval(rows, 12);
    }
  }
}

=== FILE: customerstats.dfy ===
/** Per-customer aggregates of app/utils.py: the average purchase frequency
    (`compute_avg_purchase_frequency`) and the average customer lifespan in
    years (`compute_customer_lifespan`). Both group the rows by customer,
    take each customer's first and last invoice instant, and average over
    customers; both fall back to a default when a needed column is missing. */
module CustomerStats {
  import opened Seqs
  import opened Frames

  /** Seconds in the `np.timedelta64(30, "D")` month. */
  const SecondsPerMonth: int := 30 * SecondsPerDay

  /** Default frequency when a column is missing. */
  const DefaultFrequency: real := 12.0

  /** Default lifespan in years when a column is missing. */
  const DefaultLifespan: real := 3.0

  /** Time between the first and the last invoice of a non-empty group, in seconds. */
  function Span(group: seq<Txn>): (s: int)
    requires group != []
    ensures s >= 0
  {
    var ts := Instants(group);
    Max(ts) - Min(ts)
  }

  /** `active_months`: the span in 30-day months, at least 1 (`clip(lower=1)`). */
  function ActiveMonths(span: int): (m: real)
    ensures m >= 1.0
  {
    var months := span as real / SecondsPerMonth as real;
    if months < 1.0 then 1.0 else months
  }

  /** `lifespan_days`: the whole days of the span (`.dt.days` rounds a
      non-negative span down), at least 1. */
  function LifespanDays(span: int): (d: nat)
    requires span >= 0
    ensures d >= 1
  {
    var days := span / SecondsPerDay;
    if days < 1 then 1 else days
  }

  /** A purchase frequency: a row count over the active months of a span. */
  function Frequency(count: nat, span: int): real
  {
    count as real / ActiveMonths(span)
  }

  /** The active months being at least one, a frequency is positive and
      never exceeds its row count. */
  lemma FrequencyBounds(count: nat, span: int)
    requires count >= 1
    ensures 0.0 < Frequency(count, span) <= count as real
  {
    var n, m := count as real, ActiveMonths(span);
    var q := n / m;
    assert q * m == n;
    assert q * (m - 1.0) == n - q;
  }

  /** `freq` of one customer: its row count over its active months. */
  function CustomerFrequency(rows: seq<Txn>, c: int): real
    requires c in CustomerIds(rows)
  {
    var group := RowsOf(rows, c);
    Frequency(|group|, Span(group))
  }

  /** The `freq` column, one value per customer of `ks`. */
  function Frequencies(rows: seq<Txn>, ks: seq<int>): (fs: seq<real>)
    requires forall k :: k in ks ==> k in CustomerIds(rows)
    ensures |fs| == |ks|
    ensures forall i :: 0 <= i < |ks| ==> fs[i] == CustomerFrequency(rows, ks[i])
  {
    seq(|ks|, i requires 0 <= i < |ks| => CustomerFrequency(rows, ks[i]))
  }

  /** The lifespan in days of each customer of `ks`. */
  function LifespansDays(rows: seq<Txn>, ks: seq<int>): (ds: seq<real>)
    requires forall k :: k in ks ==> k in CustomerIds(rows)
    ensures |ds| == |ks|
    ensures forall i :: 0 <= i < |ks| ==> ds[i] == LifespanDays(Span(RowsOf(rows, ks[i]))) as real
  {
    seq(|ks|, i requires 0 <= i < |ks| => LifespanDays(Span(RowsOf(rows, ks[i]))) as real)
  }

  /** Both aggregates need `CustomerID` and `InvoiceDate`. */
  predicate HasCustomerDates(f: Frame)
  {
    CustomerIdCol in f.columns && InvoiceDateCol in f.columns
  }

  /** `compute_avg_purchase_frequency`: the mean of the customers' `freq`,
      12 when a column is missing, NaN on an empty table. */
  function AvgPurchaseFrequency(f: Frame): (m: Stat)
    ensures !HasCustomerDates(f) ==> m == Num(DefaultFrequency)
    ensures HasCustomerDates(f) ==> (m.NaN? <==> f.rows == [])
    ensures HasCustomerDates(f) ==> m == Mean(Frequencies(f.rows, Customers(f.rows)))
  {
    if !HasCustomerDates(f) then Num(DefaultFrequency)
    else
      var cs := Customers(f.rows);
      assert f.rows != [] ==> f.rows[0].customerId in cs by {
        if f.rows != [] { assert CustomerIds(f.rows)[0] == f.rows[0].customerId; }
      }
      Mean(Frequencies(f.rows, cs))
  }

  /** `compute_customer_lifespan`: the mean of the customers' lifespans in
      days over 365, 3 when a column is missing, NaN on an empty table. */
  function CustomerLifespan(f: Frame): (m: Stat)
    ensures !HasCustomerDates(f) ==> m == Num(DefaultLifespan)
    ensures HasCustomerDates(f) ==> (m.NaN? <==> f.rows == [])
    ensures HasCustomerDates(f) && m.Num? ==>
      m.value == Mean(LifespansDays(f.rows, Customers(f.rows))).value / 365.0
  {
    if !HasCustomerDates(f) then Num(DefaultLifespan)
    else
      var cs := Customers(f.rows);
      assert f.rows != [] ==> f.rows[0].customerId in cs by {
        if f.rows != [] { assert CustomerIds(f.rows)[0] == f.rows[0].customerId; }
      }
      match Mean(LifespansDays(f.rows, cs))
      case NaN => NaN
      case Num(days) => Num(days / 365.0)
  }

  /** A customer's frequency is positive and never exceeds its row count:
      the active months are at least one. */
  lemma CustomerFrequencyBounds(rows: seq<Txn>, c: int)
    requires c in CustomerIds(rows)
    ensures 0.0 < CustomerFrequency(rows, c) <= |RowsOf(rows, c)| as real
  {
    var group := RowsOf(rows, c);
    FrequencyBounds(|group|, Span(group));
  }

  /** The row count of a table as a column sum. */
  function One(t: Txn): real
  {
    1.0
  }

  lemma {:induction false} CountIsTotalOfOnes(rows: seq<Txn>)
    ensures Total(rows, One) == |rows| as real
  {
    if rows != [] {
      CountIsTotalOfOnes(rows[..|rows| - 1]);
    }
  }

  /** The `count` column: each customer's number of rows. */
  function GroupSizes(rows: seq<Txn>, ks: seq<int>): (ns: seq<real>)
    ensures |ns| == |ks|
    ensures forall i :: 0 <= i < |ks| ==> ns[i] == |RowsOf(rows, ks[i])| as real
  {
    seq(|ks|, i requires 0 <= i < |ks| => |RowsOf(rows, ks[i])| as real)
  }

  lemma GroupSizesSnoc(rows: seq<Txn>, ks: seq<int>)
    requires ks != []
    ensures Sum(GroupSizes(rows, ks))
         == Sum(GroupSizes(rows, ks[..|ks| - 1])) + |RowsOf(rows, ks[|ks| - 1])| as real
  {
    var ns := GroupSizes(rows, ks);
    assert ns[..|ns| - 1] == GroupSizes(rows, ks[..|ks| - 1]);
  }

  lemma {:induction false} GroupSizesAreGroupSums(rows: seq<Txn>, ks: seq<int>)
    ensures Sum(GroupSizes(rows, ks)) == GroupSum(ks, rows, One)
  {
    if ks != [] {
      GroupSizesAreGroupSums(rows, ks[..|ks| - 1]);
      CountIsTotalOfOnes(RowsOf(rows, ks[|ks| - 1]));
      GroupSizesSnoc(rows, ks);
    }
  }

  /** The customers' row counts add up to the table's row count. */
  lemma GroupSizesPartitionRows(rows: seq<Txn>)
    ensures Sum(GroupSizes(rows, Customers(rows))) == |rows| as real
  {
    GroupSizesAreGroupSums(rows, Customers(rows));
    GroupTotalsPartition(rows, One);
    CountIsTotalOfOnes(rows);
  }

  /** The average frequency is positive and at most the average number of
      rows per customer, whose customers' row counts add up to the table's. */
  lemma AvgPurchaseFrequencyBounds(f: Frame)
    requires HasCustomerDates(f) && f.rows != []
    ensures 0.0 < AvgPurchaseFrequency(f).value
    ensures AvgPurchaseFrequency(f).value <= Mean(GroupSizes(f.rows, Customers(f.rows))).value
  {
    var cs := Customers(f.rows);
    var fs, ns := Frequencies(f.rows, cs), GroupSizes(f.rows, cs);
    assert f.rows[0].customerId in cs by {
      assert CustomerIds(f.rows)[0] == f.rows[0].customerId;
    }
    forall i | 0 <= i < |fs| ensures 0.0 < fs[i] <= ns[i] {
      CustomerFrequencyBounds(f.rows, cs[i]);
    }
    MeanPositive(fs);
    MeanMonotone(fs, ns);
  }

  /** The instants of rows taken from a table are instants of the table. */
  lemma InstantsOfSubset(group: seq<Txn>, rows: seq<Txn>, t: int)
    requires forall r :: r in group ==> r in rows
    requires t in Instants(group)
    ensures t in Instants(rows)
  {
    var gts := Instants(group);
    var i :| 0 <= i < |gts| && gts[i] == t;
    var r := group[i];
    assert r in rows;
    var j :| 0 <= j < |rows| && rows[j] == r;
    assert Instants(rows)[j] == Instant(r.invoiceDate) == t;
  }

  /** A customer's first and last invoices lie within the table's. */
  lemma GroupInstantsWithin(rows: seq<Txn>, c: int)
    requires c in CustomerIds(rows)
    ensures Min(Instants(rows)) <= Min(Instants(RowsOf(rows, c)))
    ensures Max(Instants(RowsOf(rows, c))) <= Max(Instants(rows))
  {
    var group := RowsOf(rows, c);
    var ts := Instants(rows);
    InstantsOfSubset(group, rows, Min(Instants(group)));
    InstantsOfSubset(group, rows, Max(Instants(group)));
    var j :| 0 <= j < |ts| && ts[j] == Min(Instants(group));
    var j' :| 0 <= j' < |ts| && ts[j'] == Max(Instants(group));
  }

  /** Each customer's lifespan is at least one day and at most the whole
      table's span (or one day). */
  lemma CustomerLifespanDaysBounds(rows: seq<Txn>, c: int)
    requires c in CustomerIds(rows)
    ensures 1 <= LifespanDays(Span(RowsOf(rows, c))) <= LifespanDays(Span(rows))
  {
    GroupInstantsWithin(rows, c);
    LifespanDaysMonotone(Span(RowsOf(rows, c)), Span(rows));
  }

  /** A longer span has at least as many whole days. */
  lemma LifespanDaysMonotone(s: int, t: int)
    requires 0 <= s <= t
    ensures LifespanDays(s) <= LifespanDays(t)
  {
    assert s / SecondsPerDay <= t / SecondsPerDay;
  }

  /** On a non-empty table the average lifespan is at least one day and at
      most the table's span in whole days (or one day), in years. */
  lemma CustomerLifespanBounds(f: Frame)
    requires HasCustomerDates(f) && f.rows != []
    ensures 1.0 / 365.0 <= CustomerLifespan(f).value <= LifespanDays(Span(f.rows)) as real / 365.0
  {
    var cs := Customers(f.rows);
    var ds := LifespansDays(f.rows, cs);
    assert f.rows[0].customerId in cs by {
      assert CustomerIds(f.rows)[0] == f.rows[0].customerId;
    }
    var hi := LifespanDays(Span(f.rows)) as real;
    forall i | 0 <= i < |ds| ensures 1.0 <= ds[i] <= hi {
      CustomerLifespanDaysBounds(f.rows, cs[i]);
    }
    MeanBounds(ds, 1.0, hi);
  }
}

=== FILE: dashboard.dfy ===
/** The dashboard page (app/dashboard.py): the sidebar filters applied one
    after the other to the transactions, the overview KPIs computed on the
    filtered table, and the per-customer export with its estimated value.

    The filter pipeline is a method that narrows the table step by step
    and, for neutralised returns, overwrites `TotalPrice` in place in an
    array of rows; it is proved equal to one conjunctive mask over the
    input, about which the page's guarantees are stated. */
module Dashboard {
  import opened Seqs
  import opened Frames
  import Clv
  import CustomerStats

  // ---------------------------------------------------------------------
  // Filters
  // ---------------------------------------------------------------------

  /** The "Mode retours" choice. */
  datatype ReturnsMode = Inclure | Exclure | Neutraliser

  /** The country choice that disables the country filter. */
  const AllCountries := "Tous"

  /** The sidebar state: the period, the country, the minimum line total
      and the returns mode. */
  datatype Filters = Filters(start: Date, end: Date, country: string, threshold: real, mode: ReturnsMode)

  /** Chronological order of calendar dates (`datetime.date` comparison). */
  predicate DateLeq(a: Date, b: Date)
  {
    a.year < b.year
    || (a.year == b.year && a.month < b.month)
    || (a.year == b.year && a.month == b.month && a.day <= b.day)
  }

  /** One boolean mask of the pipeline. */
  datatype Criterion =
    | InPeriod(start: Date, end: Date)
    | InCountry(country: string)
    | AtLeast(threshold: real)
    | PositiveQuantity

  /** Whether a row passes a mask. The period compares the date part of
      `InvoiceDate`, both ends included. */
  predicate Holds(c: Criterion, t: Txn)
  {
    match c
    case InPeriod(s, e) => DateLeq(s, t.invoiceDate.date) && DateLeq(t.invoiceDate.date, e)
    case InCountry(name) => t.country == name
    case AtLeast(th) => t.totalPrice >= th
    case PositiveQuantity => t.quantity > 0
  }

  predicate HoldsAll(cs: seq<Criterion>, t: Txn)
  {
    forall i :: 0 <= i < |cs| ==> Holds(cs[i], t)
  }

  /** `df[mask]`: the rows that pass the mask, in order. */
  function Where(rows: seq<Txn>, c: Criterion): (kept: seq<Txn>)
    ensures forall t :: t in kept <==> t in rows && Holds(c, t)
    ensures forall t :: multiset(kept)[t] == if Holds(c, t) then multiset(rows)[t] else 0
    ensures |kept| <= |rows|
  {
    if rows == [] then []
    else
      var init, last := rows[..|rows| - 1], rows[|rows| - 1];
      assert rows == init + [last];
      assert forall t :: t in rows <==> t in init || t == last;
      Where(init, c) + (if Holds(c, last) then [last] else [])
  }

  /** The rows that pass every mask of `cs`, in order. */
  function WhereAll(rows: seq<Txn>, cs: seq<Criterion>): (kept: seq<Txn>)
    ensures forall t :: t in kept <==> t in rows && HoldsAll(cs, t)
    ensures forall t :: multiset(kept)[t] == if HoldsAll(cs, t) then multiset(rows)[t] else 0
    ensures |kept| <= |rows|
  {
    if rows == [] then []
    else
      var init, last := rows[..|rows| - 1], rows[|rows| - 1];
      assert rows == init + [last];
      assert forall t :: t in rows <==> t in init || t == last;
      WhereAll(init, cs) + (if HoldsAll(cs, last) then [last] else [])
  }

  lemma WhereSnoc(rows: seq<Txn>, x: Txn, c: Criterion)
    ensures Where(rows + [x], c) == Where(rows, c) + (if Holds(c, x) then [x] else [])
  {
    assert (rows + [x])[..|rows|] == rows;
  }

  lemma HoldsAllSnoc(cs: seq<Criterion>, c: Criterion, t: Txn)
    ensures HoldsAll(cs + [c], t) <==> HoldsAll(cs, t) && Holds(c, t)
  {
    if HoldsAll(cs, t) && Holds(c, t) {
      forall i | 0 <= i < |cs + [c]| ensures Holds((cs + [c])[i], t) {
        if i < |cs| { assert (cs + [c])[i] == cs[i]; }
      }
    }
    if HoldsAll(cs + [c], t) {
      forall i | 0 <= i < |cs| ensures Holds(cs[i], t) {
        assert (cs + [c])[i] == cs[i];
      }
      assert (cs + [c])[|cs|] == c;
    }
  }

  /** Applying one more mask to the kept rows is applying all the masks at once. */
  lemma {:induction false} WhereAfterWhereAll(rows: seq<Txn>, cs: seq<Criterion>, c: Criterion)
    ensures Where(WhereAll(rows, cs), c) == WhereAll(rows, cs + [c])
  {
    if rows != [] {
      var init, last := rows[..|rows| - 1], rows[|rows| - 1];
      var kept := WhereAll(init, cs);
      WhereAfterWhereAll(init, cs, c);
      HoldsAllSnoc(cs, c, last);
      if HoldsAll(cs, last) {
        assert WhereAll(rows, cs) == kept + [last];
        WhereSnoc(kept, last, c);
      } else {
        assert WhereAll(rows, cs) == kept + [] == kept;
        assert WhereAll(rows, cs + [c]) == WhereAll(init, cs + [c]) + [];
      }
    }
  }

  /** With no mask every row is kept. */
  lemma {:induction false} WhereAllNone(rows: seq<Txn>)
    ensures WhereAll(rows, []) == rows
  {
    if rows != [] {
      var init, last := rows[..|rows| - 1], rows[|rows| - 1];
      WhereAllNone(init);
      assert HoldsAll([], last);
      assert WhereAll(rows, []) == WhereAll(init, []) + [last];
      SplitLast(rows);
    }
  }

  /** `cs`, followed by `c` when `cond` holds. */
  function AddIf(cs: seq<Criterion>, cond: bool, c: Criterion): seq<Criterion>
  {
    if cond then cs + [c] else cs
  }

  lemma HoldsAllAddIf(cs: seq<Criterion>, cond: bool, c: Criterion, t: Txn)
    ensures HoldsAll(AddIf(cs, cond, c), t) <==> HoldsAll(cs, t) && (cond ==> Holds(c, t))
  {
    if cond {
      HoldsAllSnoc(cs, c, t);
    }
  }

  /** The masks the page applies, in its order: the period always; the
      country unless "Tous" is chosen; the threshold when there is a
      `TotalPrice` column; positive quantities in mode "Exclure" when there
      is a `Quantity` column. */
  function Criteria(flt: Filters, cols: seq<string>): (cs: seq<Criterion>)
    ensures cs != [] && cs[0] == InPeriod(flt.start, flt.end)
    ensures InCountry(flt.country) in cs <==> flt.country != AllCountries
    ensures AtLeast(flt.threshold) in cs <==> TotalPriceCol in cols
    ensures PositiveQuantity in cs <==> QuantityCol in cols && flt.mode == Exclure
    ensures forall c :: c in cs ==>
      c == InPeriod(flt.start, flt.end) || c == InCountry(flt.country) || c == AtLeast(flt.threshold) || c == PositiveQuantity
  {
    var period := [InPeriod(flt.start, flt.end)];
    var country := AddIf(period, flt.country != AllCountries, InCountry(flt.country));
    var threshold := AddIf(country, TotalPriceCol in cols, AtLeast(flt.threshold));
    AddIf(threshold, QuantityCol in cols && flt.mode == Exclure, PositiveQuantity)
  }

  /** A row passes the page's masks exactly when it is dated within the
      period, is of the chosen country unless "Tous", reaches the threshold
      when there is a `TotalPrice` column, and has a positive quantity in
      mode "Exclure" when there is a `Quantity` column. */
  lemma PassesCriteria(flt: Filters, cols: seq<string>, t: Txn)
    ensures HoldsAll(Criteria(flt, cols), t) <==>
      DateLeq(flt.start, t.invoiceDate.date) && DateLeq(t.invoiceDate.date, flt.end)
      && (flt.country != AllCountries ==> t.country == flt.country)
      && (TotalPriceCol in cols ==> t.totalPrice >= flt.threshold)
      && (QuantityCol in cols && flt.mode == Exclure ==> t.quantity > 0)
  {
    var period := [InPeriod(flt.start, flt.end)];
    var country := AddIf(period, flt.country != AllCountries, InCountry(flt.country));
    var threshold := AddIf(country, TotalPriceCol in cols, AtLeast(flt.threshold));
    assert HoldsAll(period, t) <==> Holds(period[0], t);
    HoldsAllAddIf(period, flt.country != AllCountries, InCountry(flt.country), t);
    HoldsAllAddIf(country, TotalPriceCol in cols, AtLeast(flt.threshold), t);
    HoldsAllAddIf(threshold, QuantityCol in cols && flt.mode == Exclure, PositiveQuantity, t);
  }

  /** Mode "Neutraliser" acts only when there is a `Quantity` column. */
  predicate Neutralises(flt: Filters, cols: seq<string>)
  {
    QuantityCol in cols && flt.mode == Neutraliser
  }

  /** A return line has its `TotalPrice` set to 0; other lines are kept as they are. */
  function Neutralized(t: Txn): Txn
  {
    if t.quantity < 0 then t.(totalPrice := 0.0) else t
  }

  function NeutralizeAll(rows: seq<Txn>): (out: seq<Txn>)
    ensures |out| == |rows|
    ensures forall k :: 0 <= k < |rows| ==> out[k] == Neutralized(rows[k])
  {
    seq(|rows|, k requires 0 <= k < |rows| => Neutralized(rows[k]))
  }

  /** The rows of the filtered table, as one mask over the input followed,
      in mode "Neutraliser", by the edit of the return lines. */
  function FilteredRows(f: Frame, flt: Filters): (out: seq<Txn>)
    ensures |out| <= |f.rows|
    ensures !Neutralises(flt, f.columns) ==> forall t ::
      multiset(out)[t] == if HoldsAll(Criteria(flt, f.columns), t) then multiset(f.rows)[t] else 0
  {
    var kept := WhereAll(f.rows, Criteria(flt, f.columns));
    if Neutralises(flt, f.columns) then NeutralizeAll(kept) else kept
  }

  /** The first mask alone is the first stage of the criteria. */
  lemma FirstMask(rows: seq<Txn>, c: Criterion)
    ensures Where(rows, c) == WhereAll(rows, [c])
  {
    WhereAllNone(rows);
    WhereAfterWhereAll(rows, [], c);
    assert [] + [c] == [c];
  }

  /** Applying a mask when its condition holds moves to the next stage of the criteria. */
  lemma NextMask(rows: seq<Txn>, applied: seq<Criterion>, cond: bool, c: Criterion)
    ensures (if cond then Where(WhereAll(rows, applied), c) else WhereAll(rows, applied))
         == WhereAll(rows, AddIf(applied, cond, c))
  {
    if cond {
      WhereAfterWhereAll(rows, applied, c);
    }
  }

  /** `df_f.loc[df_f["Quantity"] < 0, "TotalPrice"] = 0` on the rows held in `a`. */
  method NeutralizeInPlace(a: array<Txn>)
    modifies a
    ensures a[..] == NeutralizeAll(old(a[..]))
  {
    forall k | 0 <= k < a.Length && a[k].quantity < 0 {
      a[k] := a[k].(totalPrice := 0.0);
    }
    assert forall k :: 0 <= k < a.Length ==> a[k] == Neutralized(old(a[k]));
  }

  /** The masks of the pipeline: `df_f` is narrowed by each in turn. */
  method ApplyMasks(f: Frame, flt: Filters) returns (rows: seq<Txn>)
    ensures rows == WhereAll(f.rows, Criteria(flt, f.columns))
  {
    var c := InPeriod(flt.start, flt.end);
    FirstMask(f.rows, c);
    rows := Where(f.rows, c);
    ghost var applied := [c];

    var cond := flt.country != AllCountries;
    c := InCountry(flt.country);
    NextMask(f.rows, applied, cond, c);
    if cond {
      rows := Where(rows, c);
    }
    applied := AddIf(applied, cond, c);

    cond := TotalPriceCol in f.columns;
    c := AtLeast(flt.threshold);
    NextMask(f.rows, applied, cond, c);
    if cond {
      rows := Where(rows, c);
    }
    applied := AddIf(applied, cond, c);

    cond := QuantityCol in f.columns && flt.mode == Exclure;
    c := PositiveQuantity;
    NextMask(f.rows, applied, cond, c);
    if cond {
      rows := Where(rows, c);
    }
    applied := AddIf(applied, cond, c);
    assert applied == Criteria(flt, f.columns);
  }

  /** The pipeline of the page: the masks, then in mode "Neutraliser" the
      return lines written in place. */
  method ApplyFilters(f: Frame, flt: Filters) returns (g: Frame)
    requires QuantityCol in f.columns && TotalPriceCol in f.columns
    ensures g.columns == f.columns
    ensures g.rows == FilteredRows(f, flt)
  {
    var rows := ApplyMasks(f, flt);
    if QuantityCol in f.columns && flt.mode == Neutraliser {
      var a := new Txn[|rows|](k requires 0 <= k < |rows| => rows[k]);
      assert a[..] == rows;
      NeutralizeInPlace(a);
      rows := a[..];
    }
    g := Frame(f.columns, rows);
  }

  /** Every row of the filtered table is dated within the period, is of the
      chosen country unless "Tous", reaches the threshold when there is a
      `TotalPrice` column (a neutralised return line is at 0 instead), and
      has a positive quantity in mode "Exclure". */
  lemma FilteredRowsSound(f: Frame, flt: Filters, t: Txn)
    requires t in FilteredRows(f, flt)
    ensures DateLeq(flt.start, t.invoiceDate.date) && DateLeq(t.invoiceDate.date, flt.end)
    ensures flt.country != AllCountries ==> t.country == flt.country
    ensures TotalPriceCol in f.columns ==>
      t.totalPrice >= flt.threshold
      || (Neutralises(flt, f.columns) && t.quantity < 0 && t.totalPrice == 0.0)
    ensures QuantityCol in f.columns && flt.mode == Exclure ==> t.quantity > 0
  {
    var cs := Criteria(flt, f.columns);
    var kept := WhereAll(f.rows, cs);
    var u: Txn;
    if Neutralises(flt, f.columns) {
      var k :| 0 <= k < |kept| && NeutralizeAll(kept)[k] == t;
      u := kept[k];
      assert t == Neutralized(u);
    } else {
      u := t;
    }
    assert u in kept;
    PassesCriteria(flt, f.columns, u);
  }

  /** Every input row that passes all the page's masks is in the filtered
      table (neutralised in mode "Neutraliser"). */
  lemma FilteredRowsComplete(f: Frame, flt: Filters, t: Txn)
    requires t in f.rows
    requires DateLeq(flt.start, t.invoiceDate.date) && DateLeq(t.invoiceDate.date, flt.end)
    requires flt.country != AllCountries ==> t.country == flt.country
    requires TotalPriceCol in f.columns ==> t.totalPrice >= flt.threshold
    requires QuantityCol in f.columns && flt.mode == Exclure ==> t.quantity > 0
    ensures Neutralises(flt, f.columns) ==> Neutralized(t) in FilteredRows(f, flt)
    ensures !Neutralises(flt, f.columns) ==> t in FilteredRows(f, flt)
    ensures !Neutralises(flt, f.columns) ==> multiset(FilteredRows(f, flt))[t] == multiset(f.rows)[t]
  {
    var cs := Criteria(flt, f.columns);
    PassesCriteria(flt, f.columns, t);
    var kept := WhereAll(f.rows, cs);
    assert t in kept;
    if Neutralises(flt, f.columns) {
      var k :| 0 <= k < |kept| && kept[k] == t;
      assert NeutralizeAll(kept)[k] == Neutralized(t);
    }
  }

  /** `xs` is `ys` with some elements left out, the rest in their order. */
  predicate SubsequenceOf(xs: seq<Txn>, ys: seq<Txn>)
    decreases |ys|
  {
    if xs == [] then true
    else if ys == [] then false
    else
      (xs[|xs| - 1] == ys[|ys| - 1] && SubsequenceOf(xs[..|xs| - 1], ys[..|ys| - 1]))
      || SubsequenceOf(xs, ys[..|ys| - 1])
  }

  /** Masking keeps the rows in their order. */
  lemma {:induction false} WhereAllIsSubsequence(rows: seq<Txn>, cs: seq<Criterion>)
    ensures SubsequenceOf(WhereAll(rows, cs), rows)
  {
    if rows != [] {
      var init, last := rows[..|rows| - 1], rows[|rows| - 1];
      var kept := WhereAll(init, cs);
      WhereAllIsSubsequence(init, cs);
      if HoldsAll(cs, last) {
        var out := kept + [last];
        assert WhereAll(rows, cs) == out;
        assert out[..|out| - 1] == kept;
        assert SubsequenceOf(out, rows);
      } else {
        assert WhereAll(rows, cs) == kept + [] == kept;
        assert SubsequenceOf(kept, rows);
      }
    }
  }

  /** Outside mode "Neutraliser" the filtered table is the input with rows
      left out and the others in their order; in mode "Neutraliser" it is
      such a table with the return lines edited. */
  lemma FilteredRowsKeepOrder(f: Frame, flt: Filters)
    ensures !Neutralises(flt, f.columns) ==> SubsequenceOf(FilteredRows(f, flt), f.rows)
    ensures Neutralises(flt, f.columns) ==>
      FilteredRows(f, flt) == NeutralizeAll(WhereAll(f.rows, Criteria(flt, f.columns)))
      && SubsequenceOf(WhereAll(f.rows, Criteria(flt, f.columns)), f.rows)
  {
    WhereAllIsSubsequence(f.rows, Criteria(flt, f.columns));
  }

  /** Mode "Exclure" keeps, of what the other filters keep, exactly the rows
      with a positive quantity. */
  lemma ExcludeKeepsPositiveQuantities(f: Frame, flt: Filters)
    requires QuantityCol in f.columns && flt.mode == Exclure
    ensures FilteredRows(f, flt) == Where(FilteredRows(f, flt.(mode := Inclure)), PositiveQuantity)
  {
    var base := flt.(mode := Inclure);
    assert Criteria(flt, f.columns) == Criteria(base, f.columns) + [PositiveQuantity];
    WhereAfterWhereAll(f.rows, Criteria(base, f.columns), PositiveQuantity);
  }

  /** Mode "Neutraliser" keeps the rows the other filters keep, in place,
      sets `TotalPrice` to 0 on exactly the lines with a negative quantity,
      and changes nothing else. */
  lemma NeutraliseZeroesReturns(f: Frame, flt: Filters)
    requires QuantityCol in f.columns && flt.mode == Neutraliser
    ensures |FilteredRows(f, flt)| == |FilteredRows(f, flt.(mode := Inclure))|
    ensures forall k :: 0 <= k < |FilteredRows(f, flt)| ==>
      var before, after := FilteredRows(f, flt.(mode := Inclure))[k], FilteredRows(f, flt)[k];
      (before.quantity < 0 ==> after == before.(totalPrice := 0.0))
      && (before.quantity >= 0 ==> after == before)
  {
    assert Criteria(flt, f.columns) == Criteria(flt.(mode := Inclure), f.columns);
  }

  /** With a `TotalPrice` column and a threshold of at least 0 (the slider
      starts at 0), no filtered row has a negative total, whatever the
      returns mode: return lines with a negative total are dropped even in
      mode "Inclure". */
  lemma ThresholdDropsNegativeTotals(f: Frame, flt: Filters)
    requires TotalPriceCol in f.columns && flt.threshold >= 0.0
    ensures forall t :: t in FilteredRows(f, flt) ==> t.totalPrice >= 0.0
  {
    forall t | t in FilteredRows(f, flt) ensures t.totalPrice >= 0.0 {
      FilteredRowsSound(f, flt, t);
    }
  }

  // ---------------------------------------------------------------------
  // Overview KPIs
  // ---------------------------------------------------------------------

  /** The `TotalPrice` column. */
  function PriceOf(t: Txn): real
  {
    t.totalPrice
  }

  /** `a / n if n > 0 else 0`. */
  function GuardedQuotient(a: real, n: nat): (q: real)
    ensures n > 0 ==> q * n as real == a
    ensures n == 0 ==> q == 0.0
  {
    if n > 0 then a / n as real else 0.0
  }

  /** The four cards of the overview and the values behind them. */
  datatype Overview = Overview(
    revenue: real,
    customers: nat,
    orders: nat,
    aov: real,
    frequency: real,
    lifespan: real,
    clvBaseline: real,
    northStar: real)

  /** Retention, discount rate and margin of the baseline CLV. */
  const BaselineRetention: real := 0.6
  const BaselineDiscount: real := 0.1
  const BaselineMargin: real := 30.0

  /** The columns the overview reads; a table without them raises KeyError. */
  predicate HasKpiColumns(f: Frame)
  {
    TotalPriceCol in f.columns && CustomerIdCol in f.columns
  }

  /** The overview of a filtered table; the page stops before this point
      when the table is empty. */
  function KpiOverview(f: Frame): (k: Overview)
    requires f.rows != [] && HasKpiColumns(f)
    ensures k.revenue == Total(f.rows, PriceOf)
    ensures k.orders == |f.rows|
    ensures k.customers == |set t | t in f.rows :: t.customerId|
    ensures 1 <= k.customers <= k.orders
    ensures k.aov == k.revenue / k.orders as real
    ensures k.northStar == k.revenue / k.customers as real
    ensures k.frequency == CustomerStats.AvgPurchaseFrequency(f).value
    ensures k.lifespan == CustomerStats.CustomerLifespan(f).value
    ensures k.clvBaseline
         == Clv.CalculateClv(BaselineRetention, BaselineDiscount, k.aov, k.frequency, k.lifespan, BaselineMargin)
  {
    var revenue := Total(f.rows, PriceOf);
    var customers := |Customers(f.rows)|;
    CustomerCount(f.rows);
    assert f.rows[0].customerId in Customers(f.rows) by {
      assert CustomerIds(f.rows)[0] == f.rows[0].customerId;
    }
    var orders := |f.rows|;
    var aov := GuardedQuotient(revenue, orders);
    var freq := CustomerStats.AvgPurchaseFrequency(f).value;
    var lifespan := CustomerStats.CustomerLifespan(f).value;
    Overview(
      revenue, customers, orders, aov, freq, lifespan,
      Clv.CalculateClv(BaselineRetention, BaselineDiscount, aov, freq, lifespan, BaselineMargin),
      GuardedQuotient(revenue, customers))
  }

  lemma BaselineFactor(aov: real, freq: real, lifespan: real)
    ensures Clv.CalculateClv(BaselineRetention, BaselineDiscount, aov, freq, lifespan, BaselineMargin)
         == 0.36 * aov * freq * lifespan
  {
    var p := aov * (BaselineMargin / 100.0) * freq;
    assert (p * 0.6) / 0.5 == p * 1.2;
  }

  /** The baseline CLV is 0.36 times AOV, frequency and lifespan: a 30%
      margin times the multiplier 0.6 / (1 + 0.1 - 0.6) = 1.2. */
  lemma BaselineClv(f: Frame)
    requires f.rows != [] && HasKpiColumns(f)
    ensures KpiOverview(f).clvBaseline
         == 0.36 * KpiOverview(f).aov * KpiOverview(f).frequency * KpiOverview(f).lifespan
  {
    OverviewClv(f);
    BaselineOfOverview(KpiOverview(f));
  }

  lemma OverviewClv(f: Frame)
    requires f.rows != [] && HasKpiColumns(f)
    ensures KpiOverview(f).clvBaseline
         == Clv.CalculateClv(BaselineRetention, BaselineDiscount, KpiOverview(f).aov,
                             KpiOverview(f).frequency, KpiOverview(f).lifespan, BaselineMargin)
  {
  }

  lemma BaselineOfOverview(k: Overview)
    requires k.clvBaseline
          == Clv.CalculateClv(BaselineRetention, BaselineDiscount, k.aov, k.frequency, k.lifespan, BaselineMargin)
    ensures k.clvBaseline == 0.36 * k.aov * k.frequency * k.lifespan
  {
    BaselineFactor(k.aov, k.frequency, k.lifespan);
  }

  /** On a table with its customer and date columns, the frequency of the
      overview is positive and its lifespan at least one day, in years;
      otherwise they are the defaults 12 and 3. */
  lemma OverviewFrequencyLifespan(f: Frame)
    requires f.rows != [] && HasKpiColumns(f)
    ensures CustomerStats.HasCustomerDates(f) ==>
      0.0 < KpiOverview(f).frequency && 1.0 / 365.0 <= KpiOverview(f).lifespan
    ensures !CustomerStats.HasCustomerDates(f) ==>
      KpiOverview(f).frequency == 12.0 && KpiOverview(f).lifespan == 3.0
  {
    if CustomerStats.HasCustomerDates(f) {
      CustomerStats.AvgPurchaseFrequencyBounds(f);
      CustomerStats.CustomerLifespanBounds(f);
    }
  }

  // ---------------------------------------------------------------------
  // Export of activable customers
  // ---------------------------------------------------------------------

  /** The share of a customer's revenue taken as its estimated value. */
  const ValueShare: real := 0.3

  /** One line of the export. */
  datatype ExportRow = ExportRow(
    customerId: int,
    revenue: real,
    orders: nat,
    mainCountry: string,
    segment: string,
    estimatedValue: real)

  /** The invoice numbers of a group. */
  function InvoiceSet(group: seq<Txn>): set<string>
  {
    set r | r in group :: r.invoiceNo
  }

  /** `nunique()` of the invoice numbers of a group. */
  function InvoiceCount(group: seq<Txn>): nat
  {
    |InvoiceSet(group)|
  }

  lemma InvoiceSetSnoc(init: seq<Txn>, last: Txn)
    ensures InvoiceSet(init + [last]) == InvoiceSet(init) + {last.invoiceNo}
  {
    assert forall r :: r in init + [last] <==> r in init || r == last;
  }

  /** A group has at least one invoice when it has a row and no more
      invoices than rows. */
  lemma {:induction false} InvoiceCountBounds(group: seq<Txn>)
    ensures InvoiceCount(group) <= |group|
    ensures group != [] ==> InvoiceCount(group) >= 1
  {
    if group != [] {
      var init, last := group[..|group| - 1], group[|group| - 1];
      assert group == init + [last];
      InvoiceCountBounds(init);
      InvoiceSetSnoc(init, last);
      var before := InvoiceSet(init);
      assert last.invoiceNo in before + {last.invoiceNo};
      assert |before + {last.invoiceNo}| <= |before| + 1;
    }
  }

  function CountriesOf(group: seq<Txn>): (cs: seq<string>)
    ensures |cs| == |group|
    ensures forall k :: 0 <= k < |group| ==> cs[k] == group[k].country
  {
    seq(|group|, k requires 0 <= k < |group| => group[k].country)
  }

  function SegmentsOf(group: seq<Txn>): (ss: seq<string>)
    ensures |ss| == |group|
    ensures forall k :: 0 <= k < |group| ==> ss[k] == group[k].rfmSegment
  {
    seq(|group|, k requires 0 <= k < |group| => group[k].rfmSegment)
  }

  /** The export line of customer `c`: its revenue, invoices, most frequent
      country and segment (`mode` stands for `x.mode().iloc[0]`), and 30% of
      its revenue. */
  function ExportRowOf(f: Frame, c: int, mode: seq<string> -> string): (e: ExportRow)
    ensures e.customerId == c
    ensures e.revenue == Total(RowsOf(f.rows, c), PriceOf)
    ensures e.estimatedValue == ValueShare * e.revenue
    ensures e.orders == |set r | r in RowsOf(f.rows, c) :: r.invoiceNo|
    ensures c in CustomerIds(f.rows) ==> 1 <= e.orders <= |RowsOf(f.rows, c)|
    ensures e.mainCountry == mode(CountriesOf(RowsOf(f.rows, c)))
    ensures RfmSegmentCol in f.columns ==> e.segment == mode(SegmentsOf(RowsOf(f.rows, c)))
  {
    var group := RowsOf(f.rows, c);
    InvoiceCountBounds(group);
    var revenue := Total(group, PriceOf);
    ExportRow(
      c, revenue, InvoiceCount(group), mode(CountriesOf(group)),
      if RfmSegmentCol in f.columns then mode(SegmentsOf(group)) else "",
      revenue * ValueShare)
  }

  function ExportRowsFor(f: Frame, ks: seq<int>, mode: seq<string> -> string): (es: seq<ExportRow>)
    ensures |es| == |ks|
    ensures forall k :: 0 <= k < |ks| ==> es[k] == ExportRowOf(f, ks[k], mode)
  {
    seq(|ks|, k requires 0 <= k < |ks| => ExportRowOf(f, ks[k], mode))
  }

  /** The columns the export aggregates; `agg` raises KeyError when one is
      missing, the segment column included. */
  predicate HasExportColumns(f: Frame)
  {
    CustomerIdCol in f.columns && TotalPriceCol in f.columns && InvoiceNoCol in f.columns
    && CountryCol in f.columns && RfmSegmentCol in f.columns
  }

  /** The `activable` table: one line per customer of the filtered table,
      in order of first appearance. */
  function Activable(f: Frame, mode: seq<string> -> string): (es: seq<ExportRow>)
    requires HasExportColumns(f)
    ensures |es| == |Customers(f.rows)|
    ensures forall k :: 0 <= k < |es| ==> es[k].customerId == Customers(f.rows)[k]
  {
    ExportRowsFor(f, Customers(f.rows), mode)
  }

  /** Sum of the `Valeur_client_estimee` column. */
  function EstimatedTotal(es: seq<ExportRow>): real
  {
    if es == [] then 0.0 else EstimatedTotal(es[..|es| - 1]) + es[|es| - 1].estimatedValue
  }

  lemma {:induction false} EstimatedTotalOfGroups(f: Frame, ks: seq<int>, mode: seq<string> -> string)
    ensures EstimatedTotal(ExportRowsFor(f, ks, mode)) == GroupSum(ks, f.rows, PriceOf) * ValueShare
  {
    if ks != [] {
      var es := ExportRowsFor(f, ks, mode);
      assert es[..|es| - 1] == ExportRowsFor(f, ks[..|ks| - 1], mode);
      EstimatedTotalOfGroups(f, ks[..|ks| - 1], mode);
    }
  }

  /** The export lists each customer once, with at least one and at most
      as many invoices as rows, and an estimated value of 30% of its revenue. */
  lemma ActivableRows(f: Frame, mode: seq<string> -> string)
    requires HasExportColumns(f)
    ensures |Activable(f, mode)| == |Customers(f.rows)|
    ensures forall i, j :: 0 <= i < j < |Activable(f, mode)| ==>
      Activable(f, mode)[i].customerId != Activable(f, mode)[j].customerId
    ensures forall e :: e in Activable(f, mode) ==>
      e.customerId in CustomerIds(f.rows)
      && e.revenue == Total(RowsOf(f.rows, e.customerId), PriceOf)
      && e.orders == |set r | r in RowsOf(f.rows, e.customerId) :: r.invoiceNo|
      && 1 <= e.orders <= |RowsOf(f.rows, e.customerId)|
      && e.estimatedValue == ValueShare * e.revenue
  {
    var es, cs := Activable(f, mode), Customers(f.rows);
    forall e | e in es
      ensures e.customerId in CustomerIds(f.rows)
      ensures e.revenue == Total(RowsOf(f.rows, e.customerId), PriceOf)
      ensures e.orders == |set r | r in RowsOf(f.rows, e.customerId) :: r.invoiceNo|
      ensures 1 <= e.orders <= |RowsOf(f.rows, e.customerId)|
      ensures e.estimatedValue == ValueShare * e.revenue
    {
      var k :| 0 <= k < |es| && es[k] == e;
      assert e == ExportRowOf(f, cs[k], mode) && cs[k] in cs;
    }
  }

  /** The estimated values of the export add up to 30% of the table's revenue. */
  lemma ActivableTotal(f: Frame, mode: seq<string> -> string)
    requires HasExportColumns(f)
    ensures EstimatedTotal(Activable(f, mode)) == ValueShare * Total(f.rows, PriceOf)
  {
    EstimatedTotalOfGroups(f, Customers(f.rows), mode);
    GroupTotalsPartition(f.rows, PriceOf);
  }

  /** When the mode picks one of the values it is given, the main country
      of an exported customer is a country of one of its lines. */
  lemma MainCountryIsOneOfTheCustomers(f: Frame, mode: seq<string> -> string, e: ExportRow)
    requires forall xs :: xs != [] ==> mode(xs) in xs
    requires HasExportColumns(f) && e in Activable(f, mode)
    ensures exists r :: r in f.rows && r.customerId == e.customerId && r.country == e.mainCountry
  {
    var es, cs := Activable(f, mode), Customers(f.rows);
    var k :| 0 <= k < |es| && es[k] == e;
    assert e == ExportRowOf(f, cs[k], mode);
    MainCountryOfGroup(f, cs[k], mode);
  }

  /** The main country of a customer of the table is one of its lines' countries. */
  lemma MainCountryOfGroup(f: Frame, c: int, mode: seq<string> -> string)
    requires forall xs :: xs != [] ==> mode(xs) in xs
    requires c in CustomerIds(f.rows)
    ensures exists r :: r in f.rows && r.customerId == c && r.country == ExportRowOf(f, c, mode).mainCountry
  {
    var group := RowsOf(f.rows, c);
    var countries := CountriesOf(group);
    assert countries != [];
    assert mode(countries) in countries;
    var j :| 0 <= j < |countries| && countries[j] == ExportRowOf(f, c, mode).mainCountry;
    assert group[j] in group;
  }

}

=== FILE: frames.dfy ===
/** The transaction table the dashboard works on: one row per invoice line
    (pandas DataFrame), its column names, and the calendar used for its
    `InvoiceDate` timestamps. */
module Frames {
  import opened Seqs

  type Month = m: int | 1 <= m <= 12 witness 1
  type DayOfMonth = d: int | 1 <= d <= 31 witness 1
  type SecondOfDay = s: int | 0 <= s < 86400 witness 0

  const SecondsPerDay: int := 86400

  /** A calendar date (a `datetime.date`). The type admits day numbers past
      the end of a month, such as February 31; only real calendar dates
      come from `InvoiceDate`, and `DayNumber` and `Dashboard.DateLeq` order those alike. */
  datatype Date = Date(year: nat, month: Month, day: DayOfMonth)

  /** An `InvoiceDate` value, to the second. */
  datatype Timestamp = Timestamp(date: Date, second: SecondOfDay)

  /** Days since 1970-01-01 in the proleptic Gregorian calendar. */
  function DayNumber(d: Date): int
  {
    var y := if d.month <= 2 then d.year - 1 else d.year;
    var era := y / 400;
    var yoe := y - era * 400;
    var mp := (d.month + 9) % 12;
    var doy := (153 * mp + 2) / 5 + d.day - 1;
    var doe := yoe * 365 + yoe / 4 - yoe / 100 + doy;
    era * 146097 + doe - 719468
  }

  /** Seconds since the epoch; timestamps are compared and subtracted through it. */
  function Instant(t: Timestamp): int
  {
    DayNumber(t.date) * SecondsPerDay + t.second
  }

  /** One invoice line. Every field is the value of the column of the same
      meaning, whatever that column is called in the frame's header. */
  datatype Txn = Txn(
    invoiceNo: string,
    customerId: int,
    invoiceDate: Timestamp,
    quantity: int,
    unitPrice: real,
    totalPrice: real,
    country: string,
    rfmSegment: string,
    cohort: string,
    cohortIndex: nat)

  /** A table: its column names in order, and its rows. */
  datatype Frame = Frame(columns: seq<string>, rows: seq<Txn>)

  const CustomerIdCol := "CustomerID"
  const InvoiceDateCol := "InvoiceDate"
  const InvoiceNoCol := "InvoiceNo"
  const UnitPriceCol := "UnitPrice"
  const TotalPriceCol := "TotalPrice"
  const QuantityCol := "Quantity"
  const RfmSegmentCol := "RFM_Segment"
  const CountryCol := "Country"

  /** The `CustomerID` column. */
  function CustomerIds(rows: seq<Txn>): (ids: seq<int>)
    ensures |ids| == |rows|
    ensures forall k :: 0 <= k < |rows| ==> ids[k] == rows[k].customerId
  {
    if rows == [] then [] else CustomerIds(rows[..|rows| - 1]) + [rows[|rows| - 1].customerId]
  }

  /** The group keys of `groupby("CustomerID")`, in order of first appearance. */
  function Customers(rows: seq<Txn>): (cs: seq<int>)
    ensures forall c :: c in cs <==> c in CustomerIds(rows)
    ensures forall i, j :: 0 <= i < j < |cs| ==> cs[i] != cs[j]
  {
    Distinct(CustomerIds(rows))
  }

  /** `nunique()` of `CustomerID`: one group per distinct customer of the table. */
  lemma CustomerCount(rows: seq<Txn>)
    ensures |Customers(rows)| == |set t | t in rows :: t.customerId|
  {
    var ids := CustomerIds(rows);
    DistinctCount(ids);
    forall c | c in ids ensures c in set t | t in rows :: t.customerId {
      var k :| 0 <= k < |ids| && ids[k] == c;
      assert rows[k] in rows;
    }
    forall t | t in rows ensures t.customerId in ids {
      var k :| 0 <= k < |rows| && rows[k] == t;
      assert ids[k] == t.customerId;
    }
    assert (set x | x in ids) == (set t | t in rows :: t.customerId);
  }

  /** The group of customer `c`: its rows, in table order. */
  function RowsOf(rows: seq<Txn>, c: int): (group: seq<Txn>)
    ensures forall r :: r in group ==> r in rows && r.customerId == c
    ensures forall r :: r in rows && r.customerId == c ==> r in group
    ensures group == [] <==> c !in CustomerIds(rows)
    ensures |group| <= |rows|
    ensures forall r :: multiset(group)[r] == if r.customerId == c then multiset(rows)[r] else 0
  {
    if rows == [] then []
    else
      var last := rows[|rows| - 1];
      assert rows == rows[..|rows| - 1] + [last];
      assert CustomerIds(rows) == CustomerIds(rows[..|rows| - 1]) + [last.customerId];
      assert forall r :: r in rows <==> r in rows[..|rows| - 1] || r == last;
      RowsOf(rows[..|rows| - 1], c) + (if last.customerId == c then [last] else [])
  }

  /** The `InvoiceDate` instants of `rows`. */
  function Instants(rows: seq<Txn>): (ts: seq<int>)
    ensures |ts| == |rows|
    ensures forall k :: 0 <= k < |rows| ==> ts[k] == Instant(rows[k].invoiceDate)
  {
    if rows == [] then [] else Instants(rows[..|rows| - 1]) + [Instant(rows[|rows| - 1].invoiceDate)]
  }

  /** Column sum of the per-row value `w` (`df[col].sum()`). */
  function Total(rows: seq<Txn>, w: Txn -> real): real
  {
    if rows == [] then 0.0 else Total(rows[..|rows| - 1], w) + w(rows[|rows| - 1])
  }

  /** Sum over the customers `ks` of each customer's column sum. */
  function GroupSum(ks: seq<int>, rows: seq<Txn>, w: Txn -> real): real
  {
    if ks == [] then 0.0 else GroupSum(ks[..|ks| - 1], rows, w) + Total(RowsOf(rows, ks[|ks| - 1]), w)
  }

  /** The sum over a table grown by one row. */
  lemma {:induction false} TotalSnoc(rows: seq<Txn>, x: Txn, w: Txn -> real)
    ensures Total(rows + [x], w) == Total(rows, w) + w(x)
  {
    assert (rows + [x])[..|rows|] == rows;
  }

  /** The groups of a table grown by one row. */
  lemma {:induction false} GroupsSnoc(pre: seq<Txn>, x: Txn, c: int, w: Txn -> real)
    ensures Total(RowsOf(pre + [x], c), w)
         == Total(RowsOf(pre, c), w) + (if c == x.customerId then w(x) else 0.0)
  {
    var rows := pre + [x];
    assert rows[..|rows| - 1] == pre;
    var group0 := RowsOf(pre, c);
    if c == x.customerId {
      assert RowsOf(rows, c) == group0 + [x];
      TotalSnoc(group0, x, w);
    } else {
      assert RowsOf(rows, c) == group0 + [];
      assert group0 + [] == group0;
    }
  }

  /** The customers of a table grown by one row. */
  lemma {:induction false} CustomersSnoc(pre: seq<Txn>, x: Txn)
    ensures x.customerId in Customers(pre) ==> Customers(pre + [x]) == Customers(pre)
    ensures x.customerId !in Customers(pre) ==> Customers(pre + [x]) == Customers(pre) + [x.customerId]
  {
    var rows := pre + [x];
    assert rows[..|rows| - 1] == pre;
    assert CustomerIds(rows) == CustomerIds(pre) + [x.customerId];
    assert CustomerIds(rows)[..|rows| - 1] == CustomerIds(pre);
  }

  /** Growing the table by one row of customer `x.customerId` adds `w(x)` to the
      group sums over distinct customers exactly when that customer is among them. */
  lemma {:induction false} GroupSumSnoc(ks: seq<int>, pre: seq<Txn>, x: Txn, w: Txn -> real)
    requires forall i, j :: 0 <= i < j < |ks| ==> ks[i] != ks[j]
    ensures GroupSum(ks, pre + [x], w)
         == GroupSum(ks, pre, w) + (if x.customerId in ks then w(x) else 0.0)
  {
    if ks != [] {
      var init, k := ks[..|ks| - 1], ks[|ks| - 1];
      LastOfDistinct(ks);
      GroupSumSnoc(init, pre, x, w);
      GroupsSnoc(pre, x, k, w);
    }
  }

  /** The last of distinct keys is not among the others, which stay distinct. */
  lemma LastOfDistinct(ks: seq<int>)
    requires ks != []
    requires forall i, j :: 0 <= i < j < |ks| ==> ks[i] != ks[j]
    ensures ks[|ks| - 1] !in ks[..|ks| - 1]
    ensures forall c :: c in ks <==> c in ks[..|ks| - 1] || c == ks[|ks| - 1]
  {
    assert ks == ks[..|ks| - 1] + [ks[|ks| - 1]];
  }

  /** Summing per customer and then over customers gives the column sum:
      the groups of `groupby("CustomerID")` partition the rows. */
  lemma {:induction false} GroupTotalsPartition(rows: seq<Txn>, w: Txn -> real)
    ensures GroupSum(Customers(rows), rows, w) == Total(rows, w)
  {
    if rows != [] {
      var pre, x := rows[..|rows| - 1], rows[|rows| - 1];
      assert rows == pre + [x];
      GroupTotalsPartition(pre, w);
      var ks := Customers(pre);
      GroupSumSnoc(ks, pre, x, w);
      TotalSnoc(pre, x, w);
      CustomersSnoc(pre, x);
      if x.customerId !in ks {
        NewCustomerStep(pre, x, w);
      }
    }
  }

  lemma {:induction false} NewCustomerStep(pre: seq<Txn>, x: Txn, w: Txn -> real)
    requires x.customerId !in Customers(pre)
    ensures GroupSum(Customers(pre) + [x.customerId], pre + [x], w)
         == GroupSum(Customers(pre), pre + [x], w) + w(x)
  {
    var ks := Customers(pre);
    var ks' := ks + [x.customerId];
    assert ks'[..|ks|] == ks;
    assert RowsOf(pre, x.customerId) == [];
    GroupsSnoc(pre, x, x.customerId, w);
  }
}

=== FILE: labels.dfy ===
/** The period labels the dashboard groups revenue by (app/dashboard.py):
    `Month` is the invoice's month period as text ("2011-03"), `Quarter`
    the year, a `Q` and the quarter number ("2011Q1"). Each label is shown
    to name exactly one period: it parses back to its year and month or
    quarter, so two invoices share a label exactly when they share the
    period. */
module Labels {
  import opened Seqs
  import opened Frames

  /** The character of a decimal digit. */
  function DigitChar(d: int): char
    requires 0 <= d < 10
  {
    ('0' as int + d) as char
  }

  /** The value of a digit character. */
  function DigitValue(ch: char): int
  {
    ch as int - '0' as int
  }

  /** `str(n)` of a non-negative integer: its decimal digits, most
      significant first, without leading zeros. */
  function Decimal(n: nat): (s: string)
    ensures |s| >= 1
    ensures forall k :: 0 <= k < |s| ==> '0' <= s[k] <= '9'
    ensures n < 10 ==> s == [DigitChar(n)]
  {
    if n < 10 then [DigitChar(n)] else Decimal(n / 10) + [DigitChar(n % 10)]
  }

  /** The value of a string of decimal digits. */
  function ParseDecimal(s: string): int
  {
    if s == [] then 0 else ParseDecimal(s[..|s| - 1]) * 10 + DigitValue(s[|s| - 1])
  }

  /** Reading back the digits of `n` gives `n`. */
  lemma {:induction false} ParseDecimalOfDecimal(n: nat)
    ensures ParseDecimal(Decimal(n)) == n
  {
    var s := Decimal(n);
    if n < 10 {
      assert s[..0] == [];
    } else {
      var init := Decimal(n / 10);
      assert s[..|s| - 1] == init;
      ParseDecimalOfDecimal(n / 10);
    }
  }

  /** `dt.quarter`: months 1-3 are quarter 1, ..., 10-12 quarter 4. */
  function QuarterOf(m: Month): (q: int)
    ensures 1 <= q <= 4
    ensures 3 * q - 2 <= m <= 3 * q
  {
    (m - 1) / 3 + 1
  }

  /** The `Quarter` column: `str(year) + "Q" + str(quarter)`. It reads back
      as its date's year and quarter. */
  function QuarterLabel(d: Date): (s: string)
    ensures ParseQuarterLabel(s) == Some((d.year, QuarterOf(d.month)))
  {
    var y, q := Decimal(d.year), QuarterOf(d.month);
    var s := y + "Q" + Decimal(q);
    assert s == y + ['Q', DigitChar(q)];
    assert s[..|s| - 2] == y;
    ParseDecimalOfDecimal(d.year);
    s
  }

  /** The year and quarter a quarter label names, if it has the label's shape. */
  function ParseQuarterLabel(s: string): Option<(int, int)>
  {
    if |s| < 3 || s[|s| - 2] != 'Q' then None
    else Some((ParseDecimal(s[..|s| - 2]), DigitValue(s[|s| - 1])))
  }

  /** Two dates share a quarter label exactly when they fall in the same
      quarter of the same year. */
  lemma QuarterLabelIdentifiesQuarter(d1: Date, d2: Date)
    ensures QuarterLabel(d1) == QuarterLabel(d2)
        <==> d1.year == d2.year && QuarterOf(d1.month) == QuarterOf(d2.month)
  {
  }

  /** A month number on two digits, as a month period prints it. */
  function TwoDigits(m: Month): (s: string)
    ensures |s| == 2
  {
    [DigitChar(m / 10), DigitChar(m % 10)]
  }

  /** The `Month` column: `to_period("M").astype(str)`, the year, a dash
      and the month on two digits. It reads back as its date's year and
      month. */
  function MonthLabel(d: Date): (s: string)
    ensures ParseMonthLabel(s) == Some((d.year, d.month as int))
  {
    var y := Decimal(d.year);
    var s := y + "-" + TwoDigits(d.month);
    assert s == y + ['-', DigitChar(d.month / 10), DigitChar(d.month % 10)];
    assert s[..|s| - 3] == y;
    ParseDecimalOfDecimal(d.year);
    s
  }

  /** The year and month a month label names, if it has the label's shape. */
  function ParseMonthLabel(s: string): Option<(int, int)>
  {
    if |s| < 4 || s[|s| - 3] != '-' then None
    else Some((ParseDecimal(s[..|s| - 3]), DigitValue(s[|s| - 2]) * 10 + DigitValue(s[|s| - 1])))
  }

  /** Two dates share a month label exactly when they fall in the same
      month of the same year. */
  lemma MonthLabelIdentifiesMonth(d1: Date, d2: Date)
    ensures MonthLabel(d1) == MonthLabel(d2) <==> d1.year == d2.year && d1.month == d2.month
  {
  }

  /** Dates of the same month share a quarter label: the quarter grouping
      coarsens the month grouping. */
  lemma QuarterCoarsensMonth(d1: Date, d2: Date)
    requires MonthLabel(d1) == MonthLabel(d2)
    ensures QuarterLabel(d1) == QuarterLabel(d2)
  {
    MonthLabelIdentifiesMonth(d1, d2);
  }
}

=== FILE: loading.dfy ===
/** The normalisation step of `load_data` (app/utils.py): the raw export's
    column names are brought to the names the dashboard uses, and a default
    RFM segment column is added when the file has none. Reading the file is
    a parameter: `None` stands for a read that raised. */
module Loading {
  import opened Seqs
  import opened Frames

  const RawCustomerIdCol := "Customer ID"
  const RawPriceCol := "Price"
  const RawInvoiceCol := "Invoice"
  const DefaultSegment := "Aucun segment"

  /** `df.rename(columns={oldName: newName})`: every column labelled
      `oldName` is relabelled `newName`, in place; the other labels keep their position. */
  function RenameColumn(cols: seq<string>, oldName: string, newName: string): (r: seq<string>)
    ensures |r| == |cols|
    ensures forall k :: 0 <= k < |cols| ==> r[k] == if cols[k] == oldName then newName else cols[k]
  {
    if cols == [] then []
    else [if cols[0] == oldName then newName else cols[0]] + RenameColumn(cols[1..], oldName, newName)
  }

  /** The guarded rename `if oldName in df.columns: df = df.rename(...)`. */
  function RenameIfPresent(cols: seq<string>, oldName: string, newName: string): (r: seq<string>)
    ensures |r| == |cols|
    ensures oldName !in cols ==> r == cols
    ensures oldName != newName ==> oldName !in r
    ensures newName in r <==> newName in cols || oldName in cols
    ensures forall c :: c != oldName && c != newName ==> (c in r <==> c in cols)
  {
    if oldName in cols then
      var r := RenameColumn(cols, oldName, newName);
      assert forall c :: c in r ==> c == newName || c in cols by {
        forall c | c in r ensures c == newName || c in cols {
          var k :| 0 <= k < |r| && r[k] == c;
        }
      }
      assert forall c :: c in cols && c != oldName ==> c in r by {
        forall c | c in cols && c != oldName ensures c in r {
          var k :| 0 <= k < |cols| && cols[k] == c;
          assert r[k] == c;
        }
      }
      assert newName in r by {
        var k :| 0 <= k < |cols| && cols[k] == oldName;
        assert r[k] == newName;
      }
      r
    else cols
  }

  /** The three renames in the order the source applies them. */
  function RenamedColumns(cols: seq<string>): seq<string>
  {
    var c1 := RenameIfPresent(cols, RawCustomerIdCol, CustomerIdCol);
    var c2 := RenameIfPresent(c1, RawPriceCol, UnitPriceCol);
    RenameIfPresent(c2, RawInvoiceCol, InvoiceNoCol)
  }

  /** The renames, then the default `RFM_Segment` column when it is missing:
      appended as the last column, with every row labelled "Aucun segment". */
  function Normalize(f: Frame): (g: Frame)
    ensures |g.rows| == |f.rows|
  {
    var cols := RenamedColumns(f.columns);
    if RfmSegmentCol !in cols then
      Frame(cols + [RfmSegmentCol],
            seq(|f.rows|, k requires 0 <= k < |f.rows| => f.rows[k].(rfmSegment := DefaultSegment)))
    else Frame(cols, f.rows)
  }

  /** `load_data`: the normalised table, or an empty table (no columns, no
      rows) when reading raised. */
  function LoadData(read: Option<Frame>): (g: Frame)
    ensures read.None? ==> g.columns == [] && g.rows == []
    ensures read.Some? ==> RfmSegmentCol in g.columns && |g.rows| == |read.value.rows|
  {
    match read
    case None => Frame([], [])
    case Some(f) => Normalize(f)
  }

  /** After the renames the dashboard's names are present exactly when
      either spelling was, the raw spellings are gone, and any other column
      is present exactly when it was before. */
  lemma RenamedColumnNames(cols: seq<string>)
    ensures CustomerIdCol in RenamedColumns(cols) <==> CustomerIdCol in cols || RawCustomerIdCol in cols
    ensures UnitPriceCol in RenamedColumns(cols) <==> UnitPriceCol in cols || RawPriceCol in cols
    ensures InvoiceNoCol in RenamedColumns(cols) <==> InvoiceNoCol in cols || RawInvoiceCol in cols
    ensures RawCustomerIdCol !in RenamedColumns(cols)
    ensures RawPriceCol !in RenamedColumns(cols)
    ensures RawInvoiceCol !in RenamedColumns(cols)
    ensures forall c :: c !in {RawCustomerIdCol, CustomerIdCol, RawPriceCol, UnitPriceCol, RawInvoiceCol, InvoiceNoCol} ==>
      (c in RenamedColumns(cols) <==> c in cols)
  {
    var c1 := RenameIfPresent(cols, RawCustomerIdCol, CustomerIdCol);
    var c2 := RenameIfPresent(c1, RawPriceCol, UnitPriceCol);
    var c3 := RenameIfPresent(c2, RawInvoiceCol, InvoiceNoCol);
    assert RenamedColumns(cols) == c3;
    assert CustomerIdCol in c3 <==> CustomerIdCol in c1;
    assert UnitPriceCol in c3 <==> UnitPriceCol in c2;
    assert RawCustomerIdCol !in c2;
  }

  /** After normalisation the dashboard's names are present exactly when
      either spelling was, the raw spellings are gone, and `RFM_Segment`
      always exists. */
  lemma NormalizedColumnNames(f: Frame)
    ensures CustomerIdCol in Normalize(f).columns <==> CustomerIdCol in f.columns || RawCustomerIdCol in f.columns
    ensures UnitPriceCol in Normalize(f).columns <==> UnitPriceCol in f.columns || RawPriceCol in f.columns
    ensures InvoiceNoCol in Normalize(f).columns <==> InvoiceNoCol in f.columns || RawInvoiceCol in f.columns
    ensures RawCustomerIdCol !in Normalize(f).columns
    ensures RawPriceCol !in Normalize(f).columns
    ensures RawInvoiceCol !in Normalize(f).columns
    ensures RfmSegmentCol in Normalize(f).columns
  {
    RenamedColumnNames(f.columns);
  }

  /** Any other column is present afterwards exactly when it was before. */
  lemma OtherColumnsUntouched(f: Frame, c: string)
    requires c !in {RawCustomerIdCol, CustomerIdCol, RawPriceCol, UnitPriceCol,
                    RawInvoiceCol, InvoiceNoCol, RfmSegmentCol}
    ensures c in Normalize(f).columns <==> c in f.columns
  {
    RenamedColumnNames(f.columns);
  }

  /** The rows keep their values; only a missing segment is filled with
      the default, and an existing segment column is left as it was. */
  lemma RowsPreserved(f: Frame)
    ensures forall k :: 0 <= k < |f.rows| ==>
      Normalize(f).rows[k].(rfmSegment := f.rows[k].rfmSegment) == f.rows[k]
    ensures RfmSegmentCol in RenamedColumns(f.columns) ==> Normalize(f).rows == f.rows
    ensures RfmSegmentCol !in RenamedColumns(f.columns) ==>
      forall k :: 0 <= k < |f.rows| ==> Normalize(f).rows[k].rfmSegment == DefaultSegment
  {
  }

  /** Normalising twice is normalising once. */
  lemma NormalizeIdempotent(f: Frame)
    ensures Normalize(Normalize(f)) == Normalize(f)
  {
    var g := Normalize(f);
    NormalizedColumnNames(f);
    assert RenameIfPresent(g.columns, RawCustomerIdCol, CustomerIdCol) == g.columns;
    assert RenameIfPresent(g.columns, RawPriceCol, UnitPriceCol) == g.columns;
    assert RenamedColumns(g.columns) == g.columns;
  }
}

=== FILE: scenarios.dfy ===
/** The CLV scenario page (app/pages/scenarios.py): segment labels from the
    RFM percentage score, the profile of the chosen segment, the page's own
    CLV formula over percentages, the baseline-versus-scenario comparison and
    the sweep of CLV over retention gains. */
module Scenarios {
  import opened Seqs
  import Clv

  // ---------------------------------------------------------------------
  // Segment labels (assign_segment)
  // ---------------------------------------------------------------------

  /** The five RFM segments, best first. */
  datatype Segment = Champions | Fideles | Potentiels | ARisque | Perdus

  /** The label written into the `Segment` column. */
  function Label(s: Segment): string
  {
    match s
    case Champions => "Champions"
    case Fideles => "Fid\U{E8}les"
    case Potentiels => "Potentiels"
    case ARisque => "\U{C0} Risque"
    case Perdus => "Perdus"
  }

  /** Position of a segment in the ranking, Perdus lowest. */
  function Rank(s: Segment): nat
  {
    match s
    case Perdus => 0
    case ARisque => 1
    case Potentiels => 2
    case Fideles => 3
    case Champions => 4
  }

  /** `assign_segment`: a chain of closed bands on the RFM percentage score.
      A score that falls between two bands (possible only for non-integer
      scores) reaches the final `else`. On integer scores the chain agrees
      with the threshold table, so its bands partition the integers without
      gap or overlap. */
  function AssignSegment(score: real): (s: Segment)
    ensures score.Floor as real == score ==> s == Lookup(Thresholds, score.Floor)
  {
    var t1 := [(300, Fideles), (200, Potentiels), (120, ARisque)];
    var t2 := [(200, Potentiels), (120, ARisque)];
    var t3 := [(120, ARisque)];
    assert Thresholds[1..] == t1 && t1[1..] == t2 && t2[1..] == t3 && t3[1..] == [];
    var n := score.Floor;
    assert Lookup(t3, n) == if n >= 120 then ARisque else Perdus;
    assert Lookup(t2, n) == if n >= 200 then Potentiels else Lookup(t3, n);
    assert Lookup(t1, n) == if n >= 300 then Fideles else Lookup(t2, n);
    if score >= 400.0 then Champions
    else if 300.0 <= score <= 399.0 then Fideles
    else if 200.0 <= score <= 299.0 then Potentiels
    else if 120.0 <= score <= 199.0 then ARisque
    else Perdus
  }

  /** The segment boundaries as a table of (lower bound, segment), highest
      bound first; a score below every bound is Perdus. */
  const Thresholds: seq<(int, Segment)> :=
    [(400, Champions), (300, Fideles), (200, Potentiels), (120, ARisque)]

  /** Resolution of an integer score against a table of lower bounds: the
      first entry whose bound the score reaches. */
  function Lookup(table: seq<(int, Segment)>, score: int): Segment
  {
    if table == [] then Perdus
    else if score >= table[0].0 then table[0].1
    else Lookup(table[1..], score)
  }

  /** On integer scores each segment is exactly one band. */
  lemma IntegerScoreBands(score: int)
    ensures AssignSegment(score as real) == Champions <==> score >= 400
    ensures AssignSegment(score as real) == Fideles <==> 300 <= score <= 399
    ensures AssignSegment(score as real) == Potentiels <==> 200 <= score <= 299
    ensures AssignSegment(score as real) == ARisque <==> 120 <= score <= 199
    ensures AssignSegment(score as real) == Perdus <==> score < 120
  {
  }

  /** On integer scores a higher score never gets a lower-ranked segment. */
  lemma AssignSegmentMonotoneOnIntegers(s1: int, s2: int)
    requires s1 <= s2
    ensures Rank(AssignSegment(s1 as real)) <= Rank(AssignSegment(s2 as real))
  {
    IntegerScoreBands(s1);
    IntegerScoreBands(s2);
  }

  /** Non-integer scores strictly between two bands fall through to Perdus,
      even just below the Champions bound. */
  lemma GapScoresAreLost(score: real)
    requires 399.0 < score < 400.0 || 299.0 < score < 300.0
          || 199.0 < score < 200.0 || 119.0 < score < 120.0
    ensures AssignSegment(score) == Perdus
  {
  }

  // ---------------------------------------------------------------------
  // The RFM table and the chosen segment
  // ---------------------------------------------------------------------

  type PosInt = n: int | 1 <= n witness 1

  /** One row of the RFM result table: `Customer ID`,
      `Monetaire_Total_Depense`, `Frequence_Nb_Commandes` (at least one
      order per customer), `RFM_Pourcentage` and `Segment`. */
  datatype RfmCustomer = RfmCustomer(
    customerId: int,
    totalSpend: real,
    orderCount: PosInt,
    score: real,
    segment: string)

  /** The RFM table, and whether it already carries a `Segment` column. */
  datatype RfmTable = RfmTable(hasSegment: bool, rows: seq<RfmCustomer>)

  /** The `Segment` column, rebuilt from the score when it is missing. */
  function WithSegments(t: RfmTable): (t': RfmTable)
    ensures t'.hasSegment
    ensures |t'.rows| == |t.rows|
    ensures forall k :: 0 <= k < |t.rows| ==>
      t'.rows[k].(segment := t.rows[k].segment) == t.rows[k]
    ensures t.hasSegment ==> t' == t
    ensures !t.hasSegment ==> forall k :: 0 <= k < |t.rows| ==>
      t'.rows[k].segment == Label(AssignSegment(t.rows[k].score))
  {
    if t.hasSegment then t
    else RfmTable(true, seq(|t.rows|, k requires 0 <= k < |t.rows| =>
      t.rows[k].(segment := Label(AssignSegment(t.rows[k].score)))))
  }

  /** The per-customer `AOV` column: spend per order. */
  function CustomerAov(c: RfmCustomer): real
  {
    c.totalSpend / c.orderCount as real
  }

  /** The rows of the chosen segment, in table order. */
  function SegmentRows(rows: seq<RfmCustomer>, target: string): (seg: seq<RfmCustomer>)
    ensures forall c :: c in seg <==> c in rows && c.segment == target
    ensures forall c :: multiset(seg)[c] == if c.segment == target then multiset(rows)[c] else 0
    ensures |seg| <= |rows|
  {
    if rows == [] then []
    else
      assert rows == [rows[0]] + rows[1..];
      (if rows[0].segment == target then [rows[0]] else []) + SegmentRows(rows[1..], target)
  }

  function SpendSum(rows: seq<RfmCustomer>): real
  {
    if rows == [] then 0.0 else rows[0].totalSpend + SpendSum(rows[1..])
  }

  function OrderSum(rows: seq<RfmCustomer>): (n: int)
    ensures n >= |rows|
  {
    if rows == [] then 0 else rows[0].orderCount + OrderSum(rows[1..])
  }

  /** The `Customer ID` column. */
  function RfmCustomerIds(rows: seq<RfmCustomer>): (ids: seq<int>)
    ensures |ids| == |rows|
    ensures forall k :: 0 <= k < |rows| ==> ids[k] == rows[k].customerId
  {
    if rows == [] then [] else [rows[0].customerId] + RfmCustomerIds(rows[1..])
  }

  /** `nunique()` of `Customer ID`: the number of distinct customers. */
  lemma RfmCustomerCount(rows: seq<RfmCustomer>)
    ensures |Distinct(RfmCustomerIds(rows))| == |set c | c in rows :: c.customerId|
  {
    var ids := RfmCustomerIds(rows);
    DistinctCount(ids);
    forall x | x in ids ensures x in set c | c in rows :: c.customerId {
      var k :| 0 <= k < |ids| && ids[k] == x;
      assert rows[k] in rows;
    }
    forall c | c in rows ensures c.customerId in ids {
      var k :| 0 <= k < |rows| && rows[k] == c;
      assert ids[k] == c.customerId;
    }
    assert (set x | x in ids) == (set c | c in rows :: c.customerId);
  }

  /** The totals of the chosen segment behind what the page shows: distinct
      customers, rows, total spend and total orders. */
  datatype Profile = Profile(nbClients: nat, nbRows: nat, spend: real, orders: nat)

  /** `aov_seg`: total spend over total orders. */
  function AovSeg(p: Profile): (a: real)
    requires p.orders > 0
    ensures a * p.orders as real == p.spend
  {
    p.spend / p.orders as real
  }

  /** `freq_seg`: mean order count over the segment's rows. */
  function FreqSeg(p: Profile): (f: real)
    requires p.nbRows > 0
    ensures f * p.nbRows as real == p.orders as real
    ensures p.orders >= p.nbRows ==> f >= 1.0
  {
    var f := p.orders as real / p.nbRows as real;
    if p.orders >= p.nbRows then QuotientAtLeastOne(p.orders as real, p.nbRows as real); f else f
  }

  /** The profile of a non-empty segment. Every row has at least one order,
      so there are at least as many orders as rows. */
  function ProfileOf(seg: seq<RfmCustomer>): (p: Profile)
    requires seg != []
    ensures p.nbClients == |set c | c in seg :: c.customerId|
    ensures p.spend == SpendSum(seg) && p.orders == OrderSum(seg)
    ensures 1 <= p.nbClients <= p.nbRows == |seg| <= p.orders
    ensures FreqSeg(p) >= 1.0
  {
    var ids := RfmCustomerIds(seg);
    assert ids[0] in Distinct(ids);
    RfmCustomerCount(seg);
    Profile(|Distinct(ids)|, |seg|, SpendSum(seg), OrderSum(seg))
  }

  /** The segment profile, or None when the segment has no customer (the
      page stops before any calculation). */
  function SegmentProfile(rows: seq<RfmCustomer>, target: string): (p: Option<Profile>)
    ensures p.None? <==> forall c :: c in rows ==> c.segment != target
    ensures p.Some? ==> p.value == ProfileOf(SegmentRows(rows, target))
  {
    var seg := SegmentRows(rows, target);
    if seg == [] then None
    else
      assert seg[0] in rows;
      Some(ProfileOf(seg))
  }

  /** A quotient of a positive number by a smaller positive number is at least 1. */
  lemma QuotientAtLeastOne(a: real, b: real)
    requires 0.0 < b <= a
    ensures a / b >= 1.0
  {
    assert (a / b) * b == a;
  }

  /** A number between lo * o and hi * o, divided by o > 0, lies between lo and hi. */
  lemma QuotientWithin(s: real, o: real, lo: real, hi: real)
    requires 0.0 < o && lo * o <= s <= hi * o
    ensures lo <= s / o <= hi
  {
    var q := s / o;
    assert (q - lo) * o == s - lo * o >= 0.0;
    assert (hi - q) * o == hi * o - s >= 0.0;
  }

  /** Bounds on every customer's spend per order bound the weighted sums. */
  lemma {:induction false} SpendWithinOrderBounds(rows: seq<RfmCustomer>, lo: real, hi: real)
    requires forall c :: c in rows ==> lo <= CustomerAov(c) <= hi
    ensures lo * OrderSum(rows) as real <= SpendSum(rows) <= hi * OrderSum(rows) as real
  {
    if rows != [] {
      var c := rows[0];
      SpendWithinOrderBounds(rows[1..], lo, hi);
      var o := c.orderCount as real;
      assert CustomerAov(c) * o == c.totalSpend;
      assert OrderSum(rows) as real == o + OrderSum(rows[1..]) as real;
      WeightedBoundsStep(lo, hi, CustomerAov(c), o, c.totalSpend, OrderSum(rows[1..]) as real, SpendSum(rows[1..]));
    }
  }

  /** One more customer, of `o` orders and spend `spend` at `aov` per order,
      keeps the weighted bounds. */
  lemma WeightedBoundsStep(lo: real, hi: real, aov: real, o: real, spend: real, rest: real, restSpend: real)
    requires 0.0 < o && aov * o == spend && lo <= aov <= hi
    requires lo * rest <= restSpend <= hi * rest
    ensures lo * (o + rest) <= spend + restSpend <= hi * (o + rest)
  {
    Clv.ScaleMonotone(o, lo, aov);
    Clv.ScaleMonotone(o, aov, hi);
    assert lo * (o + rest) == lo * o + lo * rest;
    assert hi * (o + rest) == hi * o + hi * rest;
  }

  /** The segment AOV (total spend over total orders) lies between the
      smallest and the largest per-customer AOV of the segment. */
  lemma SegmentAovWithinCustomerAovs(seg: seq<RfmCustomer>, lo: real, hi: real)
    requires seg != []
    requires forall c :: c in seg ==> lo <= CustomerAov(c) <= hi
    ensures lo <= AovSeg(ProfileOf(seg)) <= hi
  {
    SpendWithinOrderBounds(seg, lo, hi);
    QuotientWithin(SpendSum(seg), OrderSum(seg) as real, lo, hi);
  }

  /** Baseline revenue per customer (`ca_base = aov_seg * freq_seg`) is the
      segment's total spend spread over its rows. */
  lemma BaselineRevenueIsMeanSpend(p: Profile)
    requires p.nbRows > 0 && p.orders > 0
    ensures AovSeg(p) * FreqSeg(p) == p.spend / p.nbRows as real
  {
    var n := p.nbRows as real;
    assert AovSeg(p) * (p.orders as real) == p.spend;
    assert FreqSeg(p) * n == p.orders as real;
    assert (AovSeg(p) * FreqSeg(p)) * n == AovSeg(p) * (FreqSeg(p) * n);
  }

  // ---------------------------------------------------------------------
  // The page's CLV formula
  // ---------------------------------------------------------------------

  /** `calculate_clv` of the scenario page: rates in percent, no lifespan
      factor, only `r <= 0` guarded, a zero denominator (the caught division
      error) gives 0, and the result is clamped at 0. */
  function PageClv(aov: real, freq: real, retentionPct: int, discountPct: int, margePct: int): (clv: real)
    ensures clv >= 0.0
    ensures retentionPct <= 0 ==> clv == 0.0
  {
    var r := retentionPct as real / 100.0;
    var d := discountPct as real / 100.0;
    var marge := margePct as real / 100.0;
    if r <= 0.0 then 0.0
    else
      var profitPerPeriod := aov * marge * freq;
      if 1.0 + d - r == 0.0 then 0.0
      else
        var clv := (profitPerPeriod * r) / (1.0 + d - r);
        if clv >= 0.0 then clv else 0.0
  }

  /** Regrouping of the unclamped value: profit per period times the
      retention multiplier. */
  lemma PageClvFactors(aov: real, freq: real, retentionPct: int, discountPct: int, margePct: int)
    requires retentionPct > 0 && retentionPct != 100 + discountPct
    ensures var r, d := retentionPct as real / 100.0, discountPct as real / 100.0;
      var raw := (aov * (margePct as real / 100.0) * freq) * (r / (1.0 + d - r));
      PageClv(aov, freq, retentionPct, discountPct, margePct) == if raw >= 0.0 then raw else 0.0
  {
    var r, d := retentionPct as real / 100.0, discountPct as real / 100.0;
    var p := aov * (margePct as real / 100.0) * freq;
    assert 1.0 + d - r != 0.0;
    assert (p * r) / (1.0 + d - r) == p * (r / (1.0 + d - r));
  }

  /** The page CLV is positive exactly when retention is positive and the
      profit per period and the denominator 100 + d - r have the same sign
      (a negative margin over a negative denominator is positive too). */
  lemma PageClvPositiveIff(aov: real, freq: real, retentionPct: int, discountPct: int, margePct: int)
    ensures PageClv(aov, freq, retentionPct, discountPct, margePct) > 0.0
        <==> retentionPct > 0
             && (aov * margePct as real * freq) * (100 + discountPct - retentionPct) as real > 0.0
  {
    if retentionPct > 0 && retentionPct != 100 + discountPct {
      PageClvFactors(aov, freq, retentionPct, discountPct, margePct);
      var r, d := retentionPct as real / 100.0, discountPct as real / 100.0;
      var m := aov * margePct as real * freq;
      var p := aov * (margePct as real / 100.0) * freq;
      var den := 1.0 + d - r;
      var e := (100 + discountPct - retentionPct) as real;
      assert p == m / 100.0 && den == e / 100.0;
      QuotientSign(r, den);
      ProductSign(p, r / den, den);
      assert p * den == (m * e) / 10000.0;
    }
  }

  /** A positive number over a non-zero one has the divisor's sign. */
  lemma QuotientSign(r: real, den: real)
    requires 0.0 < r && den != 0.0
    ensures r / den > 0.0 <==> den > 0.0
    ensures r / den != 0.0
  {
    var f := r / den;
    assert f * den == r > 0.0;
  }

  /** Replacing a factor by one of the same sign keeps the sign of a product. */
  lemma ProductSign(p: real, f: real, g: real)
    requires (f > 0.0 <==> g > 0.0) && (f < 0.0 <==> g < 0.0)
    ensures p * f > 0.0 <==> p * g > 0.0
  {
  }

  /** Below the pole (r < 100 + d) the page CLV never decreases as the
      retention percentage grows, whatever the sign of the margin. */
  lemma PageClvIncreasingInRetention(aov: real, freq: real, r1: int, r2: int, discountPct: int, margePct: int)
    requires r1 <= r2 < 100 + discountPct
    ensures PageClv(aov, freq, r1, discountPct, margePct) <= PageClv(aov, freq, r2, discountPct, margePct)
  {
    if r1 > 0 {
      PageClvFactors(aov, freq, r1, discountPct, margePct);
      PageClvFactors(aov, freq, r2, discountPct, margePct);
      var c := 1.0 + discountPct as real / 100.0;
      var x1, x2 := r1 as real / 100.0, r2 as real / 100.0;
      var p := aov * (margePct as real / 100.0) * freq;
      Clv.RetentionFactorIncreasing(c, x1, x2);
      var f1, f2 := x1 / (c - x1), x2 / (c - x2);
      if p >= 0.0 {
        Clv.ScaleMonotone(p, f1, f2);
      } else {
        assert p * f1 < 0.0 && p * f2 < 0.0;
      }
    }
  }

  /** Where the page's guards and the utilities' guards both pass (r and d
      positive, r below the pole) and the profit is non-negative, the page
      CLV is the utilities' CLV over fractions with a lifespan of one. */
  lemma PageClvAgreesWithUtilsClv(aov: real, freq: real, retentionPct: int, discountPct: int, margePct: int)
    requires 0 < retentionPct < 100 + discountPct && 0 < discountPct
    requires 0.0 <= aov && 0.0 <= freq && 0 <= margePct
    ensures PageClv(aov, freq, retentionPct, discountPct, margePct)
         == Clv.CalculateClv(retentionPct as real / 100.0, discountPct as real / 100.0,
                             aov, freq, 1.0, margePct as real)
  {
    var r, d := retentionPct as real / 100.0, discountPct as real / 100.0;
    PageClvFactors(aov, freq, retentionPct, discountPct, margePct);
    Clv.ClvFactors(r, d, aov, freq, 1.0, margePct as real);
    Clv.ClvNonNegativeBelowPole(r, d, aov, freq, 1.0, margePct as real);
  }

  /** With a zero discount rate the two formulas part: the utilities return
      0 while the page still returns a positive CLV. */
  lemma PageClvDiffersAtZeroDiscount(aov: real, freq: real, retentionPct: int, margePct: int)
    requires 0 < retentionPct < 100
    requires 0.0 < aov && 0.0 < freq && 0 < margePct
    ensures Clv.CalculateClv(retentionPct as real / 100.0, 0.0, aov, freq, 1.0, margePct as real) == 0.0
    ensures PageClv(aov, freq, retentionPct, 0, margePct) > 0.0
  {
    PageClvPositiveIff(aov, freq, retentionPct, 0, margePct);
    var m := aov * margePct as real * freq;
    assert m > 0.0;
    assert (100 - retentionPct) as real > 0.0;
  }

  // ---------------------------------------------------------------------
  // Baseline versus scenario
  // ---------------------------------------------------------------------

  /** The page's sliders: baseline margin, retention and discount rate, and
      the scenario's discount, retention gain and margin change, all in
      percent or percentage points. */
  datatype BusinessParams = BusinessParams(
    margeBasePct: int,
    rBasePct: int,
    dPct: int,
    remisePct: int,
    gainRetentionPts: int,
    deltaMargePts: int)

  /** The figures the page compares and exports. */
  datatype Comparison = Comparison(
    clvBase: real,
    caBase: real,
    aovScen: real,
    rScenPct: int,
    margeScenPct: int,
    clvScen: real,
    caScen: real,
    deltaClv: real,
    deltaCa: real,
    deltaR: int)

  /** Retention after a gain, capped at 99 %. */
  function ScenarioRetention(rBasePct: int, gain: int): (r: int)
    ensures r <= 99
    ensures r - rBasePct <= gain
    ensures rBasePct + gain <= 99 ==> r == rBasePct + gain
    ensures rBasePct <= 99 && gain >= 0 ==> r >= rBasePct
  {
    if rBasePct + gain <= 99 then rBasePct + gain else 99
  }

  /** AOV after the scenario's average discount. */
  function DiscountedAov(aov: real, remisePct: int): (a: real)
    ensures 0.0 <= aov && 0 <= remisePct <= 100 ==> 0.0 <= a <= aov
    ensures remisePct == 0 ==> a == aov
  {
    aov * (1.0 - remisePct as real / 100.0)
  }

  /** Baseline and scenario figures for one segment profile. */
  function CompareScenario(p: Profile, b: BusinessParams): (c: Comparison)
    requires p.nbRows > 0 && p.orders > 0
    ensures c.clvBase == PageClv(AovSeg(p), FreqSeg(p), b.rBasePct, b.dPct, b.margeBasePct)
    ensures c.caBase == p.spend / p.nbRows as real
    ensures c.aovScen == DiscountedAov(AovSeg(p), b.remisePct)
    ensures c.rScenPct == ScenarioRetention(b.rBasePct, b.gainRetentionPts)
    ensures c.margeScenPct == b.margeBasePct + b.deltaMargePts
    ensures c.clvScen == PageClv(c.aovScen, FreqSeg(p), c.rScenPct, b.dPct, c.margeScenPct)
    ensures c.caScen == c.aovScen * FreqSeg(p)
    ensures c.deltaClv == c.clvScen - c.clvBase
    ensures c.deltaCa == -(c.caBase * b.remisePct as real / 100.0)
    ensures c.deltaR == c.rScenPct - b.rBasePct
    ensures 0.0 <= c.clvBase && 0.0 <= c.clvScen
    ensures c.rScenPct <= 99 && c.deltaR <= b.gainRetentionPts
  {
    BaselineRevenueIsMeanSpend(p);
    var aovSeg, freqSeg := AovSeg(p), FreqSeg(p);
    var clvBase := PageClv(aovSeg, freqSeg, b.rBasePct, b.dPct, b.margeBasePct);
    var caBase := aovSeg * freqSeg;
    var aovScen := DiscountedAov(aovSeg, b.remisePct);
    var rScen := ScenarioRetention(b.rBasePct, b.gainRetentionPts);
    var margeScen := b.margeBasePct + b.deltaMargePts;
    var clvScen := PageClv(aovScen, freqSeg, rScen, b.dPct, margeScen);
    var caScen := aovScen * freqSeg;
    Comparison(clvBase, caBase, aovScen, rScen, margeScen, clvScen, caScen,
               clvScen - clvBase, caScen - caBase, rScen - b.rBasePct)
  }

  /** A scenario without discount, retention gain or margin change
      reproduces the baseline (retention at most 99 %). */
  lemma NeutralScenarioIsBaseline(p: Profile, b: BusinessParams)
    requires p.nbRows > 0 && p.orders > 0
    requires b.remisePct == 0 && b.gainRetentionPts == 0 && b.deltaMargePts == 0
    requires b.rBasePct <= 99
    ensures CompareScenario(p, b).deltaClv == 0.0
    ensures CompareScenario(p, b).deltaCa == 0.0
    ensures CompareScenario(p, b).deltaR == 0
  {
  }

  /** Within the sliders' ranges (baseline retention at most 99 %, discount
      rate not negative), a retention gain without discount or margin change
      never lowers the CLV, and the retention change never exceeds the gain. */
  lemma RetentionGainNeverLowersClv(p: Profile, b: BusinessParams)
    requires p.nbRows > 0 && p.orders > 0
    requires b.remisePct == 0 && b.deltaMargePts == 0
    requires 0 <= b.gainRetentionPts && b.rBasePct <= 99 && 0 <= b.dPct
    ensures CompareScenario(p, b).deltaClv >= 0.0
    ensures 0 <= CompareScenario(p, b).deltaR <= b.gainRetentionPts
  {
    var rScen := ScenarioRetention(b.rBasePct, b.gainRetentionPts);
    PageClvIncreasingInRetention(AovSeg(p), FreqSeg(p), b.rBasePct, rScen, b.dPct, b.margeBasePct);
  }

  // ---------------------------------------------------------------------
  // Sweep over retention gains
  // ---------------------------------------------------------------------

  /** The gains tried by the curve, `range(0, gainMax + 1, 5)`: every
      multiple of 5 from 0 up to `gainMax`, in increasing order. */
  function GainGrid(gainMax: int): (gains: seq<int>)
    ensures |gains| == if gainMax >= 0 then gainMax / 5 + 1 else 0
    ensures forall k :: 0 <= k < |gains| ==> gains[k] == 5 * k
    ensures forall g :: g in gains <==> 0 <= g <= gainMax && g % 5 == 0
  {
    var n := if gainMax >= 0 then gainMax / 5 + 1 else 0;
    var gains := seq(n, k requires 0 <= k < n => 5 * k);
    assert forall g :: 0 <= g <= gainMax && g % 5 == 0 ==> g in gains by {
      forall g | 0 <= g <= gainMax && g % 5 == 0 ensures g in gains {
        assert gains[g / 5] == g;
      }
    }
    gains
  }

  /** The CLV curve over retention gains 0, 5, ..., up to `gainMax`: one
      scenario CLV per gain, retention capped at 99 %. With a non-negative
      discount rate the curve never decreases. */
  method RetentionGainSweep(gainMax: int, rBasePct: int, aovScen: real, freqSeg: real,
                            dPct: int, margeScenPct: int)
    returns (gains: seq<int>, clvVals: seq<real>)
    ensures |gains| == if gainMax >= 0 then gainMax / 5 + 1 else 0
    ensures forall k :: 0 <= k < |gains| ==> gains[k] == 5 * k <= gainMax
    ensures |clvVals| == |gains|
    ensures forall k :: 0 <= k < |gains| ==>
      clvVals[k] == PageClv(aovScen, freqSeg, ScenarioRetention(rBasePct, gains[k]), dPct, margeScenPct)
    ensures dPct >= 0 ==> forall i, j :: 0 <= i <= j < |clvVals| ==> clvVals[i] <= clvVals[j]
  {
    gains := GainGrid(gainMax);
    clvVals := [];
    for k := 0 to |gains|
      invariant |clvVals| == k
      invariant forall i :: 0 <= i < k ==>
        clvVals[i] == PageClv(aovScen, freqSeg, ScenarioRetention(rBasePct, gains[i]), dPct, margeScenPct)
    {
      var g := gains[k];
      var rTmp := ScenarioRetention(rBasePct, g);
      var clvTmp := PageClv(aovScen, freqSeg, rTmp, dPct, margeScenPct);
      clvVals := clvVals + [clvTmp];
    }
    if dPct >= 0 {
      forall i, j | 0 <= i <= j < |clvVals| ensures clvVals[i] <= clvVals[j] {
        PageClvIncreasingInRetention(aovScen, freqSeg, ScenarioRetention(rBasePct, gains[i]),
                                     ScenarioRetention(rBasePct, gains[j]), dPct, margeScenPct);
      }
    }
  }
}

=== FILE: seqs.dfy ===
/** Sequence helpers shared by the aggregations of the analytics engine:
    sums and means of reals (pandas `sum()` / `mean()`), distinct values
    (`unique()` / `nunique()`), and the minimum and maximum of integers. */
module Seqs {

  datatype Option<+T> = None | Some(value: T)

  /** The value of a pandas mean: a number, or NaN for an empty series. */
  datatype Stat = Num(value: real) | NaN

  /** Sum of a sequence of reals, folded from the back. */
  function Sum(xs: seq<real>): real
  {
    if xs == [] then 0.0 else Sum(xs[..|xs| - 1]) + xs[|xs| - 1]
  }

  /** pandas `Series.mean()`: NaN on an empty series. */
  function Mean(xs: seq<real>): (m: Stat)
    ensures m.NaN? <==> xs == []
  {
    if xs == [] then NaN else Num(Sum(xs) / |xs| as real)
  }

  /** Bounds that hold of every element bound the sum. */
  lemma {:induction false} SumBounds(xs: seq<real>, lo: real, hi: real)
    requires forall k :: 0 <= k < |xs| ==> lo <= xs[k] <= hi
    ensures lo * |xs| as real <= Sum(xs) <= hi * |xs| as real
  {
    if xs != [] {
      SumBounds(xs[..|xs| - 1], lo, hi);
    }
  }

  /** A non-empty sum of positive terms is positive. */
  lemma {:induction false} SumPositive(xs: seq<real>)
    requires xs != []
    requires forall k :: 0 <= k < |xs| ==> 0.0 < xs[k]
    ensures 0.0 < Sum(xs)
  {
    if |xs| > 1 {
      SumPositive(xs[..|xs| - 1]);
    }
  }

  /** A mean of positive terms is positive. */
  lemma MeanPositive(xs: seq<real>)
    requires xs != []
    requires forall k :: 0 <= k < |xs| ==> 0.0 < xs[k]
    ensures 0.0 < Mean(xs).value
  {
    SumPositive(xs);
  }

  /** A pointwise inequality carries over to the sums. */
  lemma {:induction false} SumMonotone(xs: seq<real>, ys: seq<real>)
    requires |xs| == |ys|
    requires forall k :: 0 <= k < |xs| ==> xs[k] <= ys[k]
    ensures Sum(xs) <= Sum(ys)
  {
    if xs != [] {
      SumMonotone(xs[..|xs| - 1], ys[..|ys| - 1]);
    }
  }

  /** A pointwise inequality carries over to the means. */
  lemma MeanMonotone(xs: seq<real>, ys: seq<real>)
    requires xs != [] && |xs| == |ys|
    requires forall k :: 0 <= k < |xs| ==> xs[k] <= ys[k]
    ensures Mean(xs).value <= Mean(ys).value
  {
    SumMonotone(xs, ys);
    var n := |xs| as real;
    assert (Sum(ys) - Sum(xs)) / n >= 0.0;
  }

  /** Bounds that hold of every element bound the mean. */
  lemma MeanBounds(xs: seq<real>, lo: real, hi: real)
    requires xs != []
    requires forall k :: 0 <= k < |xs| ==> lo <= xs[k] <= hi
    ensures lo <= Mean(xs).value <= hi
  {
    SumBounds(xs, lo, hi);
    var n := |xs| as real;
    assert Mean(xs).value * n == Sum(xs);
  }

  /** A non-empty sequence is its prefix followed by its last element. */
  lemma SplitLast<T>(xs: seq<T>)
    requires xs != []
    ensures xs == xs[..|xs| - 1] + [xs[|xs| - 1]]
  {
  }

  /** The distinct elements of `xs`, in order of first appearance (pandas `unique()`). */
  function Distinct<T(==,!new)>(xs: seq<T>): (d: seq<T>)
    ensures forall x :: x in d <==> x in xs
    ensures forall i, j :: 0 <= i < j < |d| ==> d[i] != d[j]
    ensures |d| <= |xs|
  {
    if xs == [] then []
    else
      var init := Distinct(xs[..|xs| - 1]);
      assert forall x :: x in xs <==> x in xs[..|xs| - 1] || x == xs[|xs| - 1];
      if xs[|xs| - 1] in init then init else init + [xs[|xs| - 1]]
  }

  /** A sequence without repeats has as many elements as its set of values. */
  lemma {:induction false} RepeatFreeCount<T>(d: seq<T>)
    requires forall i, j :: 0 <= i < j < |d| ==> d[i] != d[j]
    ensures |set x | x in d| == |d|
  {
    if d != [] {
      var init, last := d[..|d| - 1], d[|d| - 1];
      RepeatFreeCount(init);
      assert (set x | x in d) == (set x | x in init) + {last} by {
        assert forall x :: x in d <==> x in init || x == last;
      }
      assert last !in (set x | x in init);
    }
  }

  /** `nunique()`: the number of distinct elements is the size of the set of values. */
  lemma DistinctCount<T(!new)>(xs: seq<T>)
    ensures |Distinct(xs)| == |set x | x in xs|
  {
    var d := Distinct(xs);
    RepeatFreeCount(d);
    assert (set x | x in d) == (set x | x in xs);
  }

  /** The smallest element of a non-empty sequence. */
  function Min(xs: seq<int>): (m: int)
    requires xs != []
    ensures m in xs
    ensures forall k :: 0 <= k < |xs| ==> m <= xs[k]
  {
    if |xs| == 1 then xs[0]
    else
      var rest := Min(xs[1..]);
      if xs[0] <= rest then xs[0] else rest
  }

  /** The largest element of a non-empty sequence. */
  function Max(xs: seq<int>): (m: int)
    requires xs != []
    ensures m in xs
    ensures forall k :: 0 <= k < |xs| ==> xs[k] <= m
  {
    if |xs| == 1 then xs[0]
    else
      var rest := Max(xs[1..]);
      if xs[0] >= rest then xs[0] else rest
  }
}
